=== FILE: README.md ===
# Duplicate-detection tree matcher and Python parameter-list annotator

This project models two pieces of decision logic from the IntelliJ code base
and proves properties about them in Dafny.

- `duplicates_matching_visitor.dfy` (module `DuplicatesMatchingVisitor`)
  models `DuplicatesMatchingVisitor`, the structural-search visitor that
  decides whether two syntax subtrees are equivalent duplicates.
  - `match` is a recursive function on a `Node` datatype. It handles null
    elements, unwraps single-child elements (`skipNodeIfNeccessary`),
    rebuilds descriptors, compares concrete classes, descriptors, literal
    leaves, leaf texts and empty composites, and otherwise compares the
    filtered children in order.
  - `matchSequentially` and `skipIfNeccessary` are methods on two
    `NodeIterator` cursor objects. Each is proved equal to a specification
    function on sequences and positions.
  - `doMatchInAnyOrder` is a method that drains both cursors, builds the
    `hash2element` bucket map, and consumes buckets with the right-hand
    elements. It is proved equal to a specification function, and that
    function's consequences are proved as lemmas.
- `parameter_list_annotator.dfy` (module `ParameterListAnnotator`) models
  the anonymous `ParamVisitor` of `visitPyParameterList`.
  - The visitor is a class holding the name set and the five flags. It has
    one method per visit and one `errors` sequence standing for the
    `markError` calls.
  - A driver loop walks a flat parameter list.
  - The result is proved equal to a declarative specification. Each rule
    of the annotator is then proved in terms of what came before in the
    list.
- `wrappers.dfy` holds the `Option` datatype.

Collaborators whose source is not part of this model become fields of
the datatype `Env` in the duplicates module:
- the equivalence-descriptor provider;
- the profile's descriptor comparison;
- `shouldSkip`;
- the skipping handler;
- the node filter;
- the tree hasher;
- the `DISTINGUISH_LITERALS` setting.

These collaborators are uninterpreted. The only assumptions are those
collected in the predicate `WellFormed`:
- `shouldSkip` is false when the skipped cursor is exhausted (its current
  element is null);
- unwrapping never yields a larger tree.

The candidate loop of `doMatchInAnyOrder` removes every matching
candidate, where one-to-one consumption is evidently meant (see Findings).
The model keeps the loop as written and proves the first-fit version
separately.

## Model

| member | source | states |
|---|---|---|
| DuplicatesMatchingVisitor.SkipNode | plugins/structuralsearch/source/com/intellij/structuralsearch/duplicates/DuplicatesMatchingVisitor.java:72-78 | with a descriptor the unwrapped element is never null, and it is the element itself when the descriptor has no only child |
| DuplicatesMatchingVisitor.Filtered | plugins/structuralsearch/source/com/intellij/structuralsearch/duplicates/DuplicatesMatchingVisitor.java:133-134 | a filtering sibling cursor yields no more elements, and no more tree in total, than the children it filters |
| DuplicatesMatchingVisitor.FilteredMembers | plugins/structuralsearch/source/com/intellij/structuralsearch/duplicates/DuplicatesMatchingVisitor.java:133-134 | the filtering cursor yields no nulls, and it yields a child iff the child is among the siblings and the node filter accepts it |
| DuplicatesMatchingVisitor.FilteredConcat | plugins/structuralsearch/source/com/intellij/structuralsearch/duplicates/DuplicatesMatchingVisitor.java:133-134 | the filtering cursor keeps sibling order and multiplicity: filtering a concatenation gives the concatenation of the filtered parts |
| DuplicatesMatchingVisitor.Prepare | plugins/structuralsearch/source/com/intellij/structuralsearch/duplicates/DuplicatesMatchingVisitor.java:86-106 | an unwrapped side is null exactly when comparison stops there, with result "both null"; without a provider the original elements are compared with no descriptors; with one, each side is its unwrapped element with a descriptor built for that element |
| DuplicatesMatchingVisitor.Match | plugins/structuralsearch/source/com/intellij/structuralsearch/duplicates/DuplicatesMatchingVisitor.java:81-84 | a null matches exactly a null |
| DuplicatesMatchingVisitor.NullAfterUnwrapDecides | plugins/structuralsearch/source/com/intellij/structuralsearch/duplicates/DuplicatesMatchingVisitor.java:93-95 | once either unwrapped side is null, the elements match exactly when both unwrapped sides are null |
| DuplicatesMatchingVisitor.DifferentClassesNeverMatch | plugins/structuralsearch/source/com/intellij/structuralsearch/duplicates/DuplicatesMatchingVisitor.java:108-110 | elements of different concrete classes never match, whatever their descriptors |
| DuplicatesMatchingVisitor.DescriptorsDecide | plugins/structuralsearch/source/com/intellij/structuralsearch/duplicates/DuplicatesMatchingVisitor.java:112-114 | with descriptors on both sides, the descriptor comparison alone decides |
| DuplicatesMatchingVisitor.LeafComparison | plugins/structuralsearch/source/com/intellij/structuralsearch/duplicates/DuplicatesMatchingVisitor.java:116-127 | leaves match iff both token types are provider literals (with a provider and literals not distinguished) or their texts are equal |
| DuplicatesMatchingVisitor.EmptyCompositeComparison | plugins/structuralsearch/source/com/intellij/structuralsearch/duplicates/DuplicatesMatchingVisitor.java:129-131 | a childless zero-length composite matches exactly another childless zero-length composite |
| DuplicatesMatchingVisitor.ChildrenCompared | plugins/structuralsearch/source/com/intellij/structuralsearch/duplicates/DuplicatesMatchingVisitor.java:133-134 | a composite that is neither a leaf nor empty, without descriptors on both sides, matches exactly when ordered matching of the two filtered child streams succeeds |
| DuplicatesMatchingVisitor.ChildrenComparedPairwise | plugins/structuralsearch/source/com/intellij/structuralsearch/duplicates/DuplicatesMatchingVisitor.java:133-134 | when nothing is skippable, such composites match iff their filtered children are equally many and match pairwise, in both directions |
| DuplicatesMatchingVisitor.MatchReflexive | plugins/structuralsearch/source/com/intellij/structuralsearch/duplicates/DuplicatesMatchingVisitor.java:81-135 | when descriptors match themselves and no element is skipped against itself, every element matches itself |
| DuplicatesMatchingVisitor.SkipFrom | plugins/structuralsearch/source/com/intellij/structuralsearch/duplicates/DuplicatesMatchingVisitor.java:66-70 | skipping stops at the first position not skippable against the other element, and every position passed over was skippable |
| DuplicatesMatchingVisitor.MatchesSequentiallyReflexive | plugins/structuralsearch/source/com/intellij/structuralsearch/duplicates/DuplicatesMatchingVisitor.java:44-64 | under the same conditions, ordered matching of a stream against itself succeeds |
| DuplicatesMatchingVisitor.MatchesSequentiallyPairwise | plugins/structuralsearch/source/com/intellij/structuralsearch/duplicates/DuplicatesMatchingVisitor.java:44-64 | when nothing is skippable, ordered matching succeeds iff both streams have the same length and match pairwise: an exhausted cursor alone, or one failing pair, makes it false |
| DuplicatesMatchingVisitor.SkipIfNecessary | plugins/structuralsearch/source/com/intellij/structuralsearch/duplicates/DuplicatesMatchingVisitor.java:66-70 | advances only the other cursor, to the position SkipFrom gives |
| DuplicatesMatchingVisitor.MatchSequentially | plugins/structuralsearch/source/com/intellij/structuralsearch/duplicates/DuplicatesMatchingVisitor.java:44-50 | the result is MatchesSequentially on the streams and the starting positions of both cursors; neither cursor moves back; on success both cursors are exhausted |
| DuplicatesMatchingVisitor.CompareAndContinue | plugins/structuralsearch/source/com/intellij/structuralsearch/duplicates/DuplicatesMatchingVisitor.java:52-63 | the result is MatchesAfterSkip on the streams and the starting positions of both cursors; neither cursor moves back; on success both cursors are exhausted |
| DuplicatesMatchingVisitor.NonNullMembers | plugins/structuralsearch/source/com/intellij/structuralsearch/duplicates/DuplicatesMatchingVisitor.java:142-156 | the collected elements are exactly the non-null elements of the stream |
| DuplicatesMatchingVisitor.CollectNonNull | plugins/structuralsearch/source/com/intellij/structuralsearch/duplicates/DuplicatesMatchingVisitor.java:142-156 | drains the cursor and returns NonNull of what remained |
| DuplicatesMatchingVisitor.WithHashMembers | plugins/structuralsearch/source/com/intellij/structuralsearch/duplicates/DuplicatesMatchingVisitor.java:165-177 | the elements with a given hash are exactly the elements whose hash result is that hash |
| DuplicatesMatchingVisitor.BucketsContents | plugins/structuralsearch/source/com/intellij/structuralsearch/duplicates/DuplicatesMatchingVisitor.java:162-177 | a hash has a bucket iff some element has that hash, and the bucket holds those elements in input order |
| DuplicatesMatchingVisitor.BuildBuckets | plugins/structuralsearch/source/com/intellij/structuralsearch/duplicates/DuplicatesMatchingVisitor.java:162-177 | the loop builds exactly Buckets of the left-hand elements |
| DuplicatesMatchingVisitor.RemoveMatchingMembers | plugins/structuralsearch/source/com/intellij/structuralsearch/duplicates/DuplicatesMatchingVisitor.java:188-194 | the kept candidates are exactly those the element does not match; some are removed iff the element matches one |
| DuplicatesMatchingVisitor.RemoveCandidates | plugins/structuralsearch/source/com/intellij/structuralsearch/duplicates/DuplicatesMatchingVisitor.java:188-197 | the candidate loop keeps RemoveMatching of the bucket; `found` holds iff some candidate matches, iff the bucket shrank |
| DuplicatesMatchingVisitor.MatchCollected | plugins/structuralsearch/source/com/intellij/structuralsearch/duplicates/DuplicatesMatchingVisitor.java:158-206 | the result is MatchesInAnyOrder of the collected elements; different counts give false |
| DuplicatesMatchingVisitor.DoMatchInAnyOrder | plugins/structuralsearch/source/com/intellij/structuralsearch/duplicates/DuplicatesMatchingVisitor.java:138-207 | drains both cursors; the result is MatchesInAnyOrder of their non-null elements |
| DuplicatesMatchingVisitor.ConsumeCoversBuckets | plugins/structuralsearch/source/com/intellij/structuralsearch/duplicates/DuplicatesMatchingVisitor.java:179-206 | when consumption succeeds, every candidate of every bucket is matched by some right-hand element with the same hash |
| DuplicatesMatchingVisitor.ConsumeFindsCandidates | plugins/structuralsearch/source/com/intellij/structuralsearch/duplicates/DuplicatesMatchingVisitor.java:179-198 | when consumption succeeds, every hashed right-hand element had a bucket holding a candidate it matches |
| DuplicatesMatchingVisitor.AcceptedPairsHashedElements | plugins/structuralsearch/source/com/intellij/structuralsearch/duplicates/DuplicatesMatchingVisitor.java:158-206 | an accepted unordered comparison has equal counts, and pairs every hashed element on either side with a matching element of the same hash on the other side |
| DuplicatesMatchingVisitor.UnhashedElementsIgnored | plugins/structuralsearch/source/com/intellij/structuralsearch/duplicates/DuplicatesMatchingVisitor.java:165-206 | elements without a hash result are ignored on both sides, apart from the count check |
| DuplicatesMatchingVisitor.PermutationAccepted | plugins/structuralsearch/source/com/intellij/structuralsearch/duplicates/DuplicatesMatchingVisitor.java:158-206 | order does not matter as written: any reordering of a list is accepted when no element occurs twice and each element matches itself and no other element of the list |
| DuplicatesMatchingVisitor.RepeatedElementRejected | plugins/structuralsearch/source/com/intellij/structuralsearch/duplicates/DuplicatesMatchingVisitor.java:188-202 | as written, two equal hashed elements that match themselves do not match the same two elements in any order |
| DuplicatesMatchingVisitor.FirstMatch | plugins/structuralsearch/source/com/intellij/structuralsearch/duplicates/DuplicatesMatchingVisitor.java:189-194 | the position of the first matching candidate: none before it matches, and it matches unless it is past the end |
| DuplicatesMatchingVisitor.RemoveFirstMatching | plugins/structuralsearch/source/com/intellij/structuralsearch/duplicates/DuplicatesMatchingVisitor.java:189-194 | the corrected loop fails iff no candidate matches, and otherwise removes exactly one candidate |
| DuplicatesMatchingVisitor.FirstFitReflexive | plugins/structuralsearch/source/com/intellij/structuralsearch/duplicates/DuplicatesMatchingVisitor.java:179-206 | with first-fit removal, a list whose elements match themselves matches itself, repeated elements included |
| DuplicatesMatchingVisitor.FirstFitPermutationAccepted | plugins/structuralsearch/source/com/intellij/structuralsearch/duplicates/DuplicatesMatchingVisitor.java:158-206 | with first-fit removal, any reordering of a list is accepted when matching is reflexive, symmetric and transitive on its elements, repeated elements included |
| ParameterListAnnotator.ErrorsForContains | python/src/com/jetbrains/python/validation/ParameterListAnnotator.java:27-71 | one condition on the fields and the parameter for each of the six messages, both directions |
| ParameterListAnnotator.NextGrows | python/src/com/jetbrains/python/validation/ParameterListAnnotator.java:20-71 | a visit never removes a name and never clears a flag |
| ParameterListAnnotator.ParamVisitor.constructor | python/src/com/jetbrains/python/validation/ParameterListAnnotator.java:20-25 | no names, all five flags false, nothing marked |
| ParameterListAnnotator.ParamVisitor.MarkError | python/src/com/jetbrains/python/validation/ParameterListAnnotator.java:29 | appends one annotation and leaves the fields alone |
| ParameterListAnnotator.ParamVisitor.VisitNamedParameter | python/src/com/jetbrains/python/validation/ParameterListAnnotator.java:27-63 | the fields become Next of the old fields; the name is added; the messages marked are ErrorsFor the old fields, in order; the fields only grow |
| ParameterListAnnotator.ParamVisitor.VisitName | python/src/com/jetbrains/python/validation/ParameterListAnnotator.java:28-31 | adds the name to the set and changes no flag; marks the duplicate message exactly when the name was already in the set |
| ParameterListAnnotator.ParamVisitor.VisitKind | python/src/com/jetbrains/python/validation/ParameterListAnnotator.java:32-62 | the fields become KindNext of the old fields; the messages marked are KindErrors of the old fields |
| ParameterListAnnotator.ParamVisitor.VisitPositionalContainer | python/src/com/jetbrains/python/validation/ParameterListAnnotator.java:32-37 | sets only hadPositionalContainer; marks the message for `*args` after `**kwargs` exactly when a `**kwargs` was seen |
| ParameterListAnnotator.ParamVisitor.VisitKeywordContainer | python/src/com/jetbrains/python/validation/ParameterListAnnotator.java:38-43 | sets only hadKeywordContainer; marks the keyword-only message exactly when a bare `*` was seen without a regular parameter after it |
| ParameterListAnnotator.ParamVisitor.VisitRegular | python/src/com/jetbrains/python/validation/ParameterListAnnotator.java:44-62 | updates only hadParamsAfterSingleStar and hadDefaultValue; marks the container messages and then the default message, as KindErrors says |
| ParameterListAnnotator.ParamVisitor.VisitSingleStarParameter | python/src/com/jetbrains/python/validation/ParameterListAnnotator.java:66-71 | sets only hadSingleStar; marks the keyword-only message exactly when the bare `*` is last; the fields only grow |
| ParameterListAnnotator.VisitParam | python/src/com/jetbrains/python/validation/ParameterListAnnotator.java:17-19 | one step of the walk: the fields become Next of the old fields and the parameter's messages are appended with its index |
| ParameterListAnnotator.VisitParameterList | python/src/com/jetbrains/python/validation/ParameterListAnnotator.java:15-74 | the annotations are exactly those the declarative specification gives, in order; an annotation is present iff its parameter's rules call for its message |
| ParameterListAnnotator.NamesStep | python/src/com/jetbrains/python/validation/ParameterListAnnotator.java:31 | the names before the next index add the parameter's name, if it has one |
| ParameterListAnnotator.SawKindStep | python/src/com/jetbrains/python/validation/ParameterListAnnotator.java:32-43 | a container of a kind is seen before the next index iff it was seen before or the parameter is one |
| ParameterListAnnotator.SawDefaultStep | python/src/com/jetbrains/python/validation/ParameterListAnnotator.java:54-56 | a defaulted regular parameter is seen before the next index iff it was seen before or the parameter is one |
| ParameterListAnnotator.SawSingleStarStep | python/src/com/jetbrains/python/validation/ParameterListAnnotator.java:67 | a bare `*` is seen before the next index iff it was seen before or the parameter is one |
| ParameterListAnnotator.SawRegularAfterSingleStarStep | python/src/com/jetbrains/python/validation/ParameterListAnnotator.java:45-47 | a regular parameter after a bare `*` is seen before the next index iff it was seen before, or the parameter is regular and a bare `*` came before it |
| ParameterListAnnotator.NextAgreesWithHistory | python/src/com/jetbrains/python/validation/ParameterListAnnotator.java:27-71 | one visit turns the meaning of the fields before a parameter into their meaning after it |
| ParameterListAnnotator.FlagsMeanHistory | python/src/com/jetbrains/python/validation/ParameterListAnnotator.java:20-71 | after the parameters before an index, the fields hold the names seen and whether an `*args`, a `**kwargs`, a defaulted regular parameter, a bare `*`, and a regular parameter after a bare `*` came before |
| ParameterListAnnotator.HistoryGrows | python/src/com/jetbrains/python/validation/ParameterListAnnotator.java:20-71 | along the list the name set never shrinks and no flag goes from true to false |
| ParameterListAnnotator.AnnotatedAt | python/src/com/jetbrains/python/validation/ParameterListAnnotator.java:15-74 | an annotation is among those of the first n parameters iff its index is below n and its message is among those for that parameter |
| ParameterListAnnotator.AnnotationsMembers | python/src/com/jetbrains/python/validation/ParameterListAnnotator.java:15-74 | the same for the whole list |
| ParameterListAnnotator.DuplicateNameRule | python/src/com/jetbrains/python/validation/ParameterListAnnotator.java:28-31 | a parameter is marked as a duplicate iff it is named and an earlier named parameter has the same name |
| ParameterListAnnotator.FirstOccurrenceNotDuplicate | python/src/com/jetbrains/python/validation/ParameterListAnnotator.java:28-31 | the first parameter with a given name is never marked as a duplicate |
| ParameterListAnnotator.StarredAfterKeywordRule | python/src/com/jetbrains/python/validation/ParameterListAnnotator.java:32-36 | an `*args` is marked iff a `**kwargs` came before it |
| ParameterListAnnotator.NamedArgumentsAfterStarRule | python/src/com/jetbrains/python/validation/ParameterListAnnotator.java:38-71 | the keyword-only message is marked iff the parameter is a `**kwargs` after a bare `*` with no regular parameter since, or it is a bare `*` ending the list |
| ParameterListAnnotator.RegularAfterVarargRule | python/src/com/jetbrains/python/validation/ParameterListAnnotator.java:48-50 | a regular parameter is marked for following `*args` iff an `*args` came before and the level is not Python 3 |
| ParameterListAnnotator.RegularAfterKeywordRule | python/src/com/jetbrains/python/validation/ParameterListAnnotator.java:51-53 | a regular parameter is marked for following `**kwargs` iff a `**kwargs` came before and the `*args` message does not apply |
| ParameterListAnnotator.AtMostOneContainerError | python/src/com/jetbrains/python/validation/ParameterListAnnotator.java:48-53 | no parameter gets both container messages |
| ParameterListAnnotator.NonDefaultAfterDefaultRule | python/src/com/jetbrains/python/validation/ParameterListAnnotator.java:54-61 | a regular parameter without a default is marked iff a defaulted regular parameter came before, no bare `*` came before, and not (Python 3 and an `*args` came before) |

## Left out

- plugins/stream-debugger/testData/streamex/src/mapping/MapToValue.java is not part of this model. It is a debugger test fixture with no logic of its own.
- PSI machinery is not modelled:
  - an element is a `Node` value compared by content;
  - the reference comparison `newElement1 != element1` becomes value inequality, which is equivalent because building a descriptor is deterministic;
  - `getClass()` becomes the `cls` field;
  - whether an element is a `LeafElement` is the separate field `isLeaf`, not tied to `cls`, so the model admits two elements of one class of which only one is a leaf; for elements Java can produce this changes no result;
  - `getFirstChild() == null && getTextLength() == 0` becomes "no children and empty text".
- `SiblingNodeIterator` and `FilteringNodeIterator` are modelled by `NodeIterator` over a fixed sequence, and by `Filtered`. `Filtered` keeps the children for which `nodeFilter` holds, where `nodeFilter` means "the filtering iterator yields this child". Its relation to `NodeFilter.accepts` is not modelled, because the `FilteringNodeIterator` source is not part of this model.
- Collaborators whose source is not part of this model are uninterpreted fields of `Env`:
  - `EquivalenceDescriptorProvider`;
  - `StructuralSearchProfileImpl.match` and `shouldSkip`;
  - `SkippingHandler.getOnlyChild`;
  - `SSRTreeHasher.hash`;
  - the `DuplocatorSettings` singleton.
- The descriptor comparison is an opaque parameter. At line 113 it receives the visitor itself, and in the program it calls back into the visitor's ordered and unordered matchers (`matchSequentially`, `doMatchInAnyOrder`) on descriptor children. `doMatchInAnyOrder` is reached only through that callback. The model does not capture the callback.
- `MatchReflexive`: its premise that every descriptor matches itself fails in the program for a descriptor whose unordered group holds two equivalent hashed elements, because the callback into `doMatchInAnyOrder` rejects that group against itself (see RepeatedElementRejected). For such an element `match(e, e)` is false in the program.
- The hash is not assumed consistent with `match`.
- `MatchSequentially` and `CompareAndContinue`: on failure the final cursor positions are stated only as not behind the starting ones, because no caller reads them.
- `Match` assumes `WellFormed`: `shouldSkip` is false on an exhausted cursor, and unwrapping never yields a larger tree. Without these the Java code need not terminate either.
- `Match`: its own contract states only the null case. Each further branch is stated by a lemma: NullAfterUnwrapDecides, DifferentClassesNeverMatch, DescriptorsDecide, LeafComparison, EmptyCompositeComparison, and ChildrenCompared for the recursive comparison of children.
- In `doMatchInAnyOrder`, the lists and the bucket map are values (`seq`, `map`) that the methods reassign:
  - `Iterator.remove()` in place becomes building the list of kept candidates;
  - aliasing between the map and its lists is not captured.
- `RemoveCandidates` and `MatchCollected` split the candidate loop and the consumption loop out of `doMatchInAnyOrder`. `CompareAndContinue` is the second half of `matchSequentially`.
- `MatchCollected` and `DoMatchInAnyOrder` keep the loop as written (every matching candidate removed). The first-fit version is a separate definition (see Findings).
- `walkDownParamArray` is modelled as a walk over a flat list:
  - nested tuple parameters are not modelled;
  - `last` is assumed to mean "the index is the final element of the list";
  - `first` is passed but, as in the source, never read.
- `VisitName`, `VisitKind`, `VisitPositionalContainer`, `VisitKeywordContainer` and `VisitRegular` split the body of `visitNamedParameter` by parameter kind. `VisitParam` is the dispatch of the walk.
- `LanguageLevel` is the boolean `isPy3K`.
- `markError` and the `PyBundle` messages are `Annotation` records: the parameter's index and an `ErrorKind`. These are appended to the visitor's `errors`. The annotation holder is not modelled.
- `getName()` returning null is not modelled: every named parameter has a string name.

## Findings

| source | as written | input that shows it | evidently intended | confidence | as-written member | corrected member |
|---|---|---|---|---|---|---|
| plugins/structuralsearch/source/com/intellij/structuralsearch/duplicates/DuplicatesMatchingVisitor.java:189-194 | the candidate loop has no `break`, so one right-hand element removes every candidate it matches | two children `[n, n]` against `[n, n]`, with `n` hashed and matching itself: the first `n` empties the bucket, and the second finds no bucket, so the comparison fails | each right-hand element consumes one matching candidate, so a list always matches itself; when matching is an equivalence, any reordering of it also matches (FirstFitPermutationAccepted) | medium, not executed | DuplicatesMatchingVisitor.RepeatedElementRejected | DuplicatesMatchingVisitor.FirstFitReflexive |

=== FILE: duplicates_matching_visitor.dfy ===
/**
  The tree matcher behind duplicate detection: decides whether two syntax
  subtrees are equivalent, comparing children in order (with skipping) or in
  any order (with hash buckets).
 */
module DuplicatesMatchingVisitor {
  import opened Wrappers

  type ClassName = string
  type ElementType = string

  /** A syntax-tree element, compared by content. `cls` stands for the element's
      concrete Java class, `isLeaf` for "is a LeafElement", `elemType` for the
      token type a leaf reports, `text` for the element's text. */
  datatype Node = Node(cls: ClassName, isLeaf: bool, elemType: ElementType, text: string, children: seq<Node>)

  /** What the matcher uses of an equivalence descriptor: the child that the
      skipping handler finds in it, if any, and an opaque key standing for the
      rest, which only the descriptor comparison looks at. */
  datatype Descriptor = Descriptor(onlyChild: Option<Node>, key: int)

  /** A language's equivalence-descriptor provider. */
  datatype Provider = Provider(buildDescriptor: Node -> Option<Descriptor>, literals: set<ElementType>)

  /** The collaborators and settings one visitor consults, all read-only:
      - providerFor: the provider registered for an element's language, if any;
      - onlyChild: the skipping handler's single filtered child of an element
        that has no descriptor (None stands for null);
      - descriptorsMatch: the profile's comparison of two descriptors, with the
        visitor's skipped roles;
      - shouldSkip(x, y): x may be passed over when y is compared against it;
      - nodeFilter: true of the siblings the filtering iterators yield;
      - hash: the tree hasher, None when it gives no result;
      - distinguishLiterals: the DISTINGUISH_LITERALS setting. */
  datatype Env = Env(
    providerFor: Node -> Option<Provider>,
    onlyChild: Node -> Option<Node>,
    descriptorsMatch: (Descriptor, Descriptor) -> bool,
    shouldSkip: (Option<Node>, Option<Node>) -> bool,
    nodeFilter: Node -> bool,
    hash: Node -> Option<int>,
    distinguishLiterals: bool)

  // ---------------------------------------------------------------------------
  // Tree size, for termination

  function Size(n: Node): nat
    decreases n
  {
    1 + SizeOfAll(n.children)
  }

  function SizeOfAll(s: seq<Node>): nat
    decreases s
  {
    if s == [] then 0 else Size(s[0]) + SizeOfAll(s[1..])
  }

  function OptSize(o: Option<Node>): nat {
    if o.Some? then Size(o.value) else 0
  }

  function OptSizeOfAll(s: seq<Option<Node>>): nat {
    if s == [] then 0 else OptSize(s[0]) + OptSizeOfAll(s[1..])
  }

  lemma {:induction false} OptSizeOfElement(s: seq<Option<Node>>, k: nat)
    requires k < |s|
    ensures OptSize(s[k]) <= OptSizeOfAll(s)
  {
    if k > 0 {
      OptSizeOfElement(s[1..], k - 1);
    }
  }

  // ---------------------------------------------------------------------------
  // Collaborator assumptions

  /** The descriptor a provider (if any) builds for `n`. */
  function DescriptorFor(p: Option<Provider>, n: Node): Option<Descriptor> {
    if p.Some? then p.value.buildDescriptor(n) else None
  }

  /** skipNodeIfNeccessary: without a descriptor, the skipping handler's only
      child (possibly null); with one, the descriptor's only child, falling back
      to the element itself. */
  function SkipNode(env: Env, n: Node, d: Option<Descriptor>): (r: Option<Node>)
    ensures d.Some? ==> r.Some?
    ensures d.Some? && d.value.onlyChild.None? ==> r == Some(n)
  {
    if d.None? then env.onlyChild(n)
    else if d.value.onlyChild.Some? then d.value.onlyChild
    else Some(n)
  }

  /** The node `n` is replaced by before comparison, under provider `p`. */
  function Unwrap(env: Env, p: Option<Provider>, n: Node): Option<Node> {
    SkipNode(env, n, DescriptorFor(p, n))
  }

  ghost predicate UnwrapShrinks(env: Env, p: Option<Provider>, n: Node) {
    Unwrap(env, p, n).Some? ==> Size(Unwrap(env, p, n).value) <= Size(n)
  }

  /** What the model assumes of the collaborators: skipping stops at an
      exhausted cursor, and unwrapping never yields a larger tree (the
      skipping handler returns a descendant or the element itself). */
  ghost predicate WellFormed(env: Env) {
    && (forall o :: !env.shouldSkip(None, o))
    && (forall m, n :: UnwrapShrinks(env, env.providerFor(m), n))
  }

  /** The children a filtering sibling iterator yields. */
  function Filtered(env: Env, s: seq<Node>): (r: seq<Option<Node>>)
    ensures |r| <= |s|
    ensures OptSizeOfAll(r) <= SizeOfAll(s)
  {
    if s == [] then []
    else
      var rest := Filtered(env, s[1..]);
      if env.nodeFilter(s[0]) then
        assert ([Some(s[0])] + rest)[1..] == rest;
        [Some(s[0])] + rest
      else rest
  }

  /** The iterator yields no nulls, and exactly the children the filter
      accepts. */
  lemma {:induction false} FilteredMembers(env: Env, s: seq<Node>)
    ensures forall o :: o in Filtered(env, s) ==> o.Some?
    ensures forall x :: Some(x) in Filtered(env, s) <==> x in s && env.nodeFilter(x)
  {
    if s != [] {
      FilteredMembers(env, s[1..]);
      assert forall x :: x in s <==> x == s[0] || x in s[1..];
    }
  }

  /** The filtering cursor keeps the order of the siblings: filtering a
      concatenation concatenates the filtered parts. */
  lemma {:induction false} FilteredConcat(env: Env, a: seq<Node>, b: seq<Node>)
    ensures Filtered(env, a + b) == Filtered(env, a) + Filtered(env, b)
  {
    if a == [] {
      assert a + b == b;
    } else {
      assert (a + b)[0] == a[0] && (a + b)[1..] == a[1..] + b;
      FilteredConcat(env, a[1..], b);
    }
  }

  // ---------------------------------------------------------------------------
  // match

  /** The outcome of lines 86-106: either an unwrapped side is null, or the two
      elements (and descriptors) that the rest of `match` compares. */
  datatype Unwrapped =
    | NullAfterUnwrap(bothNull: bool)
    | Compared(x1: Node, d1: Option<Descriptor>, x2: Node, d2: Option<Descriptor>)

  function Prepare(env: Env, n1: Node, n2: Node): (r: Unwrapped)
    requires WellFormed(env)
    // an unwrapped side that is null decides the result: equal only when both are null
    ensures r.NullAfterUnwrap? <==> Unwrap(env, env.providerFor(n1), n1).None? || Unwrap(env, env.providerFor(n1), n2).None?
    ensures r.NullAfterUnwrap? ==>
      (r.bothNull <==> Unwrap(env, env.providerFor(n1), n1).None? && Unwrap(env, env.providerFor(n1), n2).None?)
    // without a provider the original elements are compared, with no descriptors
    ensures env.providerFor(n1).None? && r.Compared? ==> r.x1 == n1 && r.x2 == n2 && r.d1.None? && r.d2.None?
    // with a provider each side is its unwrapped node, with a descriptor built for that node
    ensures env.providerFor(n1).Some? && r.Compared? ==>
      && Some(r.x1) == Unwrap(env, env.providerFor(n1), n1) && r.d1 == DescriptorFor(env.providerFor(n1), r.x1)
      && Some(r.x2) == Unwrap(env, env.providerFor(n1), n2) && r.d2 == DescriptorFor(env.providerFor(n1), r.x2)
    ensures r.Compared? ==> Size(r.x1) <= Size(n1)
  {
    var p := env.providerFor(n1);
    var d1 := DescriptorFor(p, n1);
    var d2 := DescriptorFor(p, n2);
    var u1 := SkipNode(env, n1, d1);
    var u2 := SkipNode(env, n2, d2);
    assert UnwrapShrinks(env, p, n1);
    if u1.None? || u2.None? then NullAfterUnwrap(u1.None? && u2.None?)
    else if p.Some? then
      Compared(u1.value, if u1.value != n1 then DescriptorFor(p, u1.value) else d1,
               u2.value, if u2.value != n2 then DescriptorFor(p, u2.value) else d2)
    else
      Compared(n1, d1, n2, d2)
  }

  /** Two literal leaves are unified when literals are not distinguished and the
      provider lists both token types as literals. */
  predicate LiteralsUnified(env: Env, p: Option<Provider>, x1: Node, x2: Node) {
    && !env.distinguishLiterals
    && p.Some?
    && x1.elemType in p.value.literals
    && x2.elemType in p.value.literals
  }

  predicate IsEmptyComposite(n: Node) {
    n.children == [] && |n.text| == 0
  }

  /** match: are the two (possibly null) elements equivalent? */
  function Match(env: Env, e1: Option<Node>, e2: Option<Node>): (r: bool)
    requires WellFormed(env)
    ensures e1.None? || e2.None? ==> (r <==> e1.None? && e2.None?)
    decreases OptSize(e1), 0, 0, 0
  {
    if e1.None? || e2.None? then e1.None? && e2.None?
    else
      var p := env.providerFor(e1.value);
      match Prepare(env, e1.value, e2.value)
      case NullAfterUnwrap(bothNull) => bothNull
      case Compared(x1, d1, x2, d2) =>
        if x1.cls != x2.cls then false
        else if d1.Some? && d2.Some? then env.descriptorsMatch(d1.value, d2.value)
        else if x1.isLeaf then LiteralsUnified(env, p, x1, x2) || x1.text == x2.text
        else if IsEmptyComposite(x1) then IsEmptyComposite(x2)
        else
          MatchesSequentially(env, Filtered(env, x1.children), 0, Filtered(env, x2.children), 0)
  }

  /** The element a cursor at position `j` reports: null once exhausted. */
  function Cur(s: seq<Option<Node>>, j: nat): Option<Node> {
    if j < |s| then s[j] else None
  }

  /** skipIfNeccessary on positions: the first position at or after `j` whose
      element is not skippable against `other`. */
  function SkipFrom(env: Env, s: seq<Option<Node>>, j: nat, other: Option<Node>): (k: nat)
    requires WellFormed(env)
    requires j <= |s|
    ensures j <= k <= |s|
    ensures forall m :: j <= m < k ==> env.shouldSkip(s[m], other)
    ensures !env.shouldSkip(Cur(s, k), other)
    decreases |s| - j
  {
    if env.shouldSkip(Cur(s, j), other) then SkipFrom(env, s, j + 1, other) else j
  }

  /** matchSequentially on two cursors, given as sequences and positions: skip
      the right cursor against the left element, then the left cursor against
      the right element, then compare. */
  function MatchesSequentially(env: Env, s1: seq<Option<Node>>, i: nat, s2: seq<Option<Node>>, j: nat): bool
    requires WellFormed(env)
    requires i <= |s1| && j <= |s2|
    decreases OptSizeOfAll(s1), 1, |s1| - i + |s2| - j, 1
  {
    if i == |s1| || j == |s2| then i == |s1| && j == |s2|
    else
      var j' := SkipFrom(env, s2, j, s1[i]);
      MatchesAfterSkip(env, s1, SkipFrom(env, s1, i, Cur(s2, j')), s2, j')
  }

  /** The rest of one round of matchSequentially, once both cursors are past
      skippable elements: both exhausted, or a matching pair and the rest. */
  function MatchesAfterSkip(env: Env, s1: seq<Option<Node>>, i: nat, s2: seq<Option<Node>>, j: nat): bool
    requires WellFormed(env)
    requires i <= |s1| && j <= |s2|
    decreases OptSizeOfAll(s1), 1, |s1| - i + |s2| - j, 0
  {
    if i == |s1| || j == |s2| then i == |s1| && j == |s2|
    else
      OptSizeOfElement(s1, i);
      Match(env, s1[i], s2[j]) && MatchesSequentially(env, s1, i + 1, s2, j + 1)
  }

  // ---------------------------------------------------------------------------
  // Properties of match

  /** Lines 93-95: once unwrapping yields null on either side, the elements
      match exactly when both unwrapped to null. */
  lemma NullAfterUnwrapDecides(env: Env, n1: Node, n2: Node)
    requires WellFormed(env)
    requires Prepare(env, n1, n2).NullAfterUnwrap?
    ensures Match(env, Some(n1), Some(n2)) <==>
      Unwrap(env, env.providerFor(n1), n1).None? && Unwrap(env, env.providerFor(n1), n2).None?
  {
  }

  /** Lines 108-110: elements of different concrete classes never match,
      whatever their descriptors say. */
  lemma DifferentClassesNeverMatch(env: Env, n1: Node, n2: Node)
    requires WellFormed(env)
    requires Prepare(env, n1, n2).Compared?
    requires Prepare(env, n1, n2).x1.cls != Prepare(env, n1, n2).x2.cls
    ensures !Match(env, Some(n1), Some(n2))
  {
  }

  /** Lines 112-114: when both sides have descriptors, the descriptor
      comparison alone decides. */
  lemma DescriptorsDecide(env: Env, n1: Node, n2: Node)
    requires WellFormed(env)
    requires var u := Prepare(env, n1, n2);
      u.Compared? && u.x1.cls == u.x2.cls && u.d1.Some? && u.d2.Some?
    ensures var u := Prepare(env, n1, n2);
      Match(env, Some(n1), Some(n2)) == env.descriptorsMatch(u.d1.value, u.d2.value)
  {
  }

  /** Lines 116-127: leaves without a pair of descriptors match when both are
      unified literals, and otherwise exactly when their texts are equal. */
  lemma LeafComparison(env: Env, n1: Node, n2: Node)
    requires WellFormed(env)
    requires var u := Prepare(env, n1, n2);
      u.Compared? && u.x1.cls == u.x2.cls && !(u.d1.Some? && u.d2.Some?) && u.x1.isLeaf
    ensures var u := Prepare(env, n1, n2);
      Match(env, Some(n1), Some(n2)) <==>
        LiteralsUnified(env, env.providerFor(n1), u.x1, u.x2) || u.x1.text == u.x2.text
  {
  }

  /** Lines 129-131: a childless, zero-length composite matches only another
      childless, zero-length composite. */
  lemma EmptyCompositeComparison(env: Env, n1: Node, n2: Node)
    requires WellFormed(env)
    requires var u := Prepare(env, n1, n2);
      u.Compared? && u.x1.cls == u.x2.cls && !(u.d1.Some? && u.d2.Some?) && !u.x1.isLeaf && IsEmptyComposite(u.x1)
    ensures Match(env, Some(n1), Some(n2)) <==> IsEmptyComposite(Prepare(env, n1, n2).x2)
  {
  }

  /** Lines 133-134: a non-empty composite without descriptors on both sides
      is compared by ordered matching of its filtered children. */
  lemma ChildrenCompared(env: Env, n1: Node, n2: Node)
    requires WellFormed(env)
    requires var u := Prepare(env, n1, n2);
      u.Compared? && u.x1.cls == u.x2.cls && !(u.d1.Some? && u.d2.Some?) && !u.x1.isLeaf && !IsEmptyComposite(u.x1)
    ensures var u := Prepare(env, n1, n2);
      Match(env, Some(n1), Some(n2)) ==
        MatchesSequentially(env, Filtered(env, u.x1.children), 0, Filtered(env, u.x2.children), 0)
  {
  }

  /** Lines 133-134 when nothing is skippable: such composites match iff their
      filtered children are equally many and match pairwise, so swapping two
      children that do not match each other makes the comparison fail. */
  lemma ChildrenComparedPairwise(env: Env, n1: Node, n2: Node)
    requires WellFormed(env)
    requires forall a, b :: !env.shouldSkip(a, b)
    requires var u := Prepare(env, n1, n2);
      u.Compared? && u.x1.cls == u.x2.cls && !(u.d1.Some? && u.d2.Some?) && !u.x1.isLeaf && !IsEmptyComposite(u.x1)
    ensures var u := Prepare(env, n1, n2);
      var c1, c2 := Filtered(env, u.x1.children), Filtered(env, u.x2.children);
      Match(env, Some(n1), Some(n2)) <==>
        |c1| == |c2| && forall k :: 0 <= k < |c1| ==> Match(env, c1[k], c2[k])
  {
    var u := Prepare(env, n1, n2);
    MatchesSequentiallyPairwise(env, Filtered(env, u.x1.children), Filtered(env, u.x2.children), 0);
  }

  /** Collaborators under which every element matches itself: each descriptor
      matches itself and no element is skipped against itself. In the program
      the descriptor comparison calls back into the visitor's ordered and
      unordered matchers, so a descriptor whose unordered group holds two
      equivalent hashed elements does not match itself (see
      RepeatedElementRejected); for such collaborators the first premise
      fails. */
  ghost predicate SelfConsistent(env: Env) {
    && WellFormed(env)
    && (forall d :: env.descriptorsMatch(d, d))
    && (forall x: Node :: !env.shouldSkip(Some(x), Some(x)))
  }

  /** Reflexivity: with self-consistent collaborators, every element matches
      itself. */
  lemma {:induction false} MatchReflexive(env: Env, e: Option<Node>)
    requires SelfConsistent(env)
    ensures Match(env, e, e)
    decreases OptSize(e), 0, 0, 0
  {
    if e.Some? {
      var u := Prepare(env, e.value, e.value);
      if u.Compared? && !(u.d1.Some? && u.d2.Some?) && !u.x1.isLeaf && !IsEmptyComposite(u.x1) {
        MatchesSequentiallyReflexive(env, Filtered(env, u.x1.children), 0);
      }
    }
  }

  lemma {:induction false} MatchesSequentiallyReflexive(env: Env, s: seq<Option<Node>>, i: nat)
    requires SelfConsistent(env)
    requires i <= |s|
    ensures MatchesSequentially(env, s, i, s, i)
    decreases OptSizeOfAll(s), 1, |s| - i + |s| - i, 1
  {
    if i < |s| {
      if s[i].Some? {
        assert !env.shouldSkip(Some(s[i].value), Some(s[i].value));
      }
      assert SkipFrom(env, s, i, s[i]) == i;
      assert SkipFrom(env, s, i, Cur(s, i)) == i;
      OptSizeOfElement(s, i);
      MatchReflexive(env, s[i]);
      MatchesSequentiallyReflexive(env, s, i + 1);
      assert MatchesAfterSkip(env, s, i, s, i);
    }
  }

  /** Lines 44-64 without skippable elements: ordered matching succeeds exactly
      when both streams have the same length and match pairwise. */
  lemma {:induction false} MatchesSequentiallyPairwise(env: Env, s1: seq<Option<Node>>, s2: seq<Option<Node>>, i: nat)
    requires WellFormed(env)
    requires forall a, b :: !env.shouldSkip(a, b)
    requires i <= |s1| && i <= |s2|
    ensures MatchesSequentially(env, s1, i, s2, i) <==>
      |s1| == |s2| && forall k :: i <= k < |s1| ==> Match(env, s1[k], s2[k])
    decreases |s1| - i
  {
    if i < |s1| && i < |s2| {
      assert !env.shouldSkip(Cur(s2, i), s1[i]);
      assert SkipFrom(env, s2, i, s1[i]) == i;
      assert !env.shouldSkip(Cur(s1, i), Cur(s2, i));
      assert SkipFrom(env, s1, i, Cur(s2, i)) == i;
      assert MatchesSequentially(env, s1, i, s2, i) == MatchesAfterSkip(env, s1, i, s2, i);
      MatchesSequentiallyPairwise(env, s1, s2, i + 1);
    }
  }

  // ---------------------------------------------------------------------------
  // Cursors and the imperative ordered matcher

  /** A forward-only cursor over a sibling stream. */
  class NodeIterator {
    const elements: seq<Option<Node>>
    var pos: nat

    ghost predicate Valid()
      reads this
    {
      pos <= |elements|
    }

    constructor (elements: seq<Option<Node>>)
      ensures Valid() && this.elements == elements && pos == 0
    {
      this.elements := elements;
      pos := 0;
    }

    function HasNext(): bool
      reads this
    {
      pos < |elements|
    }

    /** The current element; null once the cursor is exhausted. */
    function Current(): Option<Node>
      reads this
    {
      Cur(elements, pos)
    }

    method Advance()
      requires Valid() && HasNext()
      modifies this
      ensures Valid() && pos == old(pos) + 1
    {
      pos := pos + 1;
    }
  }

  /** skipIfNeccessary: advances only the other cursor `nodes2`, and only while
      its current element may be skipped against the current element of
      `nodes`. */
  method SkipIfNecessary(env: Env, nodes: NodeIterator, nodes2: NodeIterator)
    requires WellFormed(env) && nodes.Valid() && nodes2.Valid() && nodes != nodes2
    modifies nodes2
    ensures nodes2.Valid()
    ensures nodes2.pos == SkipFrom(env, nodes2.elements, old(nodes2.pos), nodes.Current())
  {
    while env.shouldSkip(nodes2.Current(), nodes.Current())
      invariant nodes2.Valid() && old(nodes2.pos) <= nodes2.pos
      invariant SkipFrom(env, nodes2.elements, nodes2.pos, nodes.Current())
             == SkipFrom(env, nodes2.elements, old(nodes2.pos), nodes.Current())
      decreases |nodes2.elements| - nodes2.pos
    {
      nodes2.Advance();
    }
  }

  /** matchSequentially (lines 44-50): stops at an exhausted cursor, otherwise
      skips both cursors and compares what they reach. */
  method MatchSequentially(env: Env, nodes: NodeIterator, nodes2: NodeIterator) returns (r: bool)
    requires WellFormed(env) && nodes.Valid() && nodes2.Valid() && nodes != nodes2
    modifies nodes, nodes2
    ensures nodes.Valid() && nodes2.Valid()
    ensures r == MatchesSequentially(env, nodes.elements, old(nodes.pos), nodes2.elements, old(nodes2.pos))
    ensures old(nodes.pos) <= nodes.pos && old(nodes2.pos) <= nodes2.pos
    ensures r ==> !nodes.HasNext() && !nodes2.HasNext()
    decreases |nodes.elements| - nodes.pos + |nodes2.elements| - nodes2.pos, 1
  {
    if !nodes.HasNext() || !nodes2.HasNext() {
      return !nodes.HasNext() && !nodes2.HasNext();
    }
    SkipIfNecessary(env, nodes, nodes2);
    SkipIfNecessary(env, nodes2, nodes);
    r := CompareAndContinue(env, nodes, nodes2);
  }

  /** matchSequentially (lines 52-63), once both cursors are past skippable
      elements: compares the current pair, advances both cursors and recurses. */
  method CompareAndContinue(env: Env, nodes: NodeIterator, nodes2: NodeIterator) returns (r: bool)
    requires WellFormed(env) && nodes.Valid() && nodes2.Valid() && nodes != nodes2
    modifies nodes, nodes2
    ensures nodes.Valid() && nodes2.Valid()
    ensures r == MatchesAfterSkip(env, nodes.elements, old(nodes.pos), nodes2.elements, old(nodes2.pos))
    ensures old(nodes.pos) <= nodes.pos && old(nodes2.pos) <= nodes2.pos
    ensures r ==> !nodes.HasNext() && !nodes2.HasNext()
    decreases |nodes.elements| - nodes.pos + |nodes2.elements| - nodes2.pos, 0
  {
    if !nodes.HasNext() || !nodes2.HasNext() {
      return !nodes.HasNext() && !nodes2.HasNext();
    }
    if !Match(env, nodes.Current(), nodes2.Current()) {
      return false;
    }
    nodes.Advance();
    nodes2.Advance();
    r := MatchSequentially(env, nodes, nodes2);
  }

  // ---------------------------------------------------------------------------
  // doMatchInAnyOrder: specification

  /** The non-null elements of a stream, in order. */
  function NonNull(s: seq<Option<Node>>): (r: seq<Node>)
    ensures |r| <= |s|
  {
    if s == [] then []
    else
      var init := NonNull(s[..|s| - 1]);
      if s[|s| - 1].Some? then init + [s[|s| - 1].value] else init
  }

  /** The collected elements are exactly the non-null ones of the stream. */
  lemma {:induction false} NonNullMembers(s: seq<Option<Node>>)
    ensures forall x :: x in NonNull(s) <==> Some(x) in s
    decreases |s|
  {
    if s != [] {
      var init := s[..|s| - 1];
      NonNullMembers(init);
      assert s == init + [s[|s| - 1]];
    }
  }

  lemma NonNullSnoc(s: seq<Option<Node>>, o: Option<Node>)
    ensures NonNull(s + [o]) == NonNull(s) + (if o.Some? then [o.value] else [])
  {
    assert (s + [o])[..|s|] == s;
  }

  /** The elements of `s` whose hash is `h`, in order. */
  function WithHash(env: Env, s: seq<Node>, h: int): seq<Node> {
    if s == [] then []
    else (if env.hash(s[0]) == Some(h) then [s[0]] else []) + WithHash(env, s[1..], h)
  }

  /** A bucket holds exactly the elements with its hash. */
  lemma {:induction false} WithHashMembers(env: Env, s: seq<Node>, h: int)
    ensures forall x :: x in WithHash(env, s, h) <==> x in s && env.hash(x) == Some(h)
  {
    if s != [] {
      WithHashMembers(env, s[1..], h);
      assert forall x :: x in s <==> x == s[0] || x in s[1..];
    }
  }

  lemma {:induction false} WithHashAppend(env: Env, s: seq<Node>, x: Node, h: int)
    ensures WithHash(env, s + [x], h) == WithHash(env, s, h) + (if env.hash(x) == Some(h) then [x] else [])
  {
    if s != [] {
      assert (s + [x])[1..] == s[1..] + [x];
      WithHashAppend(env, s[1..], x, h);
    }
  }

  lemma WithHashAppendAll(env: Env, s: seq<Node>, x: Node)
    ensures forall h :: WithHash(env, s + [x], h) == WithHash(env, s, h) + (if env.hash(x) == Some(h) then [x] else [])
  {
    forall h ensures WithHash(env, s + [x], h) == WithHash(env, s, h) + (if env.hash(x) == Some(h) then [x] else []) {
      WithHashAppend(env, s, x, h);
    }
  }

  /** The bucket map of lines 162-177, built left to right. */
  function Buckets(env: Env, s: seq<Node>): map<int, seq<Node>> {
    if s == [] then map[]
    else
      var m := Buckets(env, s[..|s| - 1]);
      var x := s[|s| - 1];
      match env.hash(x)
      case None => m
      case Some(h) => m[h := (if h in m then m[h] else []) + [x]]
  }

  /** Each hash maps to the elements with that hash, in input order; no bucket
      is empty, and elements without a hash are in no bucket. */
  lemma {:induction false} BucketsContents(env: Env, s: seq<Node>)
    ensures forall h :: h in Buckets(env, s) <==> WithHash(env, s, h) != []
    ensures forall h :: h in Buckets(env, s) ==> Buckets(env, s)[h] == WithHash(env, s, h)
    decreases |s|
  {
    if s != [] {
      var init, x := s[..|s| - 1], s[|s| - 1];
      assert s == init + [x];
      BucketsContents(env, init);
      WithHashAppendAll(env, init, x);
    }
  }

  /** Lines 189-194: the candidates left in a bucket once every candidate that
      `x` matches has been removed. */
  function RemoveMatching(env: Env, x: Node, list: seq<Node>): (r: seq<Node>)
    requires WellFormed(env)
    ensures |r| <= |list|
  {
    if list == [] then []
    else
      var init := list[..|list| - 1];
      var c := list[|list| - 1];
      assert list == init + [c];
      if Match(env, Some(x), Some(c)) then RemoveMatching(env, x, init)
      else RemoveMatching(env, x, init) + [c]
  }

  /** The candidates kept are exactly those `x` does not match, and some are
      removed exactly when `x` matches one. */
  lemma {:induction false} RemoveMatchingMembers(env: Env, x: Node, list: seq<Node>)
    requires WellFormed(env)
    ensures forall c :: c in RemoveMatching(env, x, list) <==> c in list && !Match(env, Some(x), Some(c))
    ensures |RemoveMatching(env, x, list)| < |list| <==> exists c :: c in list && Match(env, Some(x), Some(c))
  {
    if list != [] {
      var init, c := list[..|list| - 1], list[|list| - 1];
      assert list == init + [c];
      RemoveMatchingMembers(env, x, init);
    }
  }

  /** Removing from one more candidate of `list`. */
  lemma RemoveMatchingStep(env: Env, x: Node, list: seq<Node>, t: nat)
    requires WellFormed(env) && t < |list|
    ensures RemoveMatching(env, x, list[..t + 1]) ==
      if Match(env, Some(x), Some(list[t])) then RemoveMatching(env, x, list[..t])
      else RemoveMatching(env, x, list[..t]) + [list[t]]
  {
    assert list[..t + 1][..t] == list[..t];
  }

  /** Lines 179-206: consume the buckets with the right-hand elements, in order;
      succeed when every hashed element removed at least one candidate and no
      bucket is left. */
  function Consume(env: Env, m: map<int, seq<Node>>, s2: seq<Node>): bool
    requires WellFormed(env)
    decreases |s2|
  {
    if s2 == [] then |m| == 0
    else
      match env.hash(s2[0])
      case None => Consume(env, m, s2[1..])
      case Some(h) =>
        && h in m
        && |RemoveMatching(env, s2[0], m[h])| < |m[h]|
        && Consume(env, ConsumeStep(env, m, s2[0], h), s2[1..])
  }

  /** doMatchInAnyOrder on the collected non-null elements. */
  function MatchesInAnyOrder(env: Env, s1: seq<Node>, s2: seq<Node>): bool
    requires WellFormed(env)
  {
    |s1| == |s2| && Consume(env, Buckets(env, s1), s2)
  }

  // ---------------------------------------------------------------------------
  // doMatchInAnyOrder: properties

  /** Some element of `s2` with hash `h` matches `y`. */
  ghost predicate CoveredBy(env: Env, s2: seq<Node>, h: int, y: Node)
    requires WellFormed(env)
  {
    exists x :: x in s2 && env.hash(x) == Some(h) && Match(env, Some(x), Some(y))
  }

  /** Some candidate in bucket `h` of `m` matches `x`. */
  ghost predicate HasCandidate(env: Env, m: map<int, seq<Node>>, h: int, x: Node)
    requires WellFormed(env)
  {
    h in m && exists y :: y in m[h] && Match(env, Some(x), Some(y))
  }

  /** One step of Consume: the map after the first right-hand element. */
  function ConsumeStep(env: Env, m: map<int, seq<Node>>, x: Node, h: int): map<int, seq<Node>>
    requires WellFormed(env)
    requires h in m
  {
    var rest := RemoveMatching(env, x, m[h]);
    if |rest| == 0 then m - {h} else m[h := rest]
  }

  lemma {:induction false} ConsumeCoversBuckets(env: Env, m: map<int, seq<Node>>, s2: seq<Node>)
    requires WellFormed(env)
    requires Consume(env, m, s2)
    ensures forall h, y :: h in m && y in m[h] ==> CoveredBy(env, s2, h, y)
    decreases |s2|
  {
    if s2 != [] {
      var x0, tail := s2[0], s2[1..];
      assert x0 in s2;
      if env.hash(x0).None? {
        assert Consume(env, m, tail);
        ConsumeCoversBuckets(env, m, tail);
        forall h, y | h in m && y in m[h] ensures CoveredBy(env, s2, h, y) {
          assert CoveredBy(env, tail, h, y);
          var x :| x in tail && env.hash(x) == Some(h) && Match(env, Some(x), Some(y));
          assert x in s2;
        }
      } else {
        var h0 := env.hash(x0).value;
        assert h0 in m;
        var rest := RemoveMatching(env, x0, m[h0]);
        RemoveMatchingMembers(env, x0, m[h0]);
        var m' := ConsumeStep(env, m, x0, h0);
        assert Consume(env, m', tail);
        ConsumeCoversBuckets(env, m', tail);
        forall h, y | h in m && y in m[h] ensures CoveredBy(env, s2, h, y) {
          if h == h0 && Match(env, Some(x0), Some(y)) {
            assert x0 in s2 && env.hash(x0) == Some(h);
          } else {
            if h == h0 {
              assert y in rest;
            }
            assert h in m' && y in m'[h];
            assert CoveredBy(env, tail, h, y);
            var x :| x in tail && env.hash(x) == Some(h) && Match(env, Some(x), Some(y));
            assert x in s2;
          }
        }
      }
    }
  }

  lemma {:induction false} ConsumeFindsCandidates(env: Env, m: map<int, seq<Node>>, s2: seq<Node>)
    requires WellFormed(env)
    requires Consume(env, m, s2)
    ensures forall x :: x in s2 && env.hash(x).Some? ==> HasCandidate(env, m, env.hash(x).value, x)
    decreases |s2|
  {
    if s2 != [] {
      var x0, tail := s2[0], s2[1..];
      if env.hash(x0).None? {
        assert Consume(env, m, tail);
        ConsumeFindsCandidates(env, m, tail);
        forall x | x in s2 && env.hash(x).Some? ensures HasCandidate(env, m, env.hash(x).value, x) {
          assert x in tail;
        }
      } else {
        var h0 := env.hash(x0).value;
        assert h0 in m;
        var rest := RemoveMatching(env, x0, m[h0]);
        RemoveMatchingMembers(env, x0, m[h0]);
        assert |rest| < |m[h0]|;
        assert HasCandidate(env, m, h0, x0);
        var m' := ConsumeStep(env, m, x0, h0);
        assert Consume(env, m', tail);
        ConsumeFindsCandidates(env, m', tail);
        forall x | x in s2 && env.hash(x).Some? ensures HasCandidate(env, m, env.hash(x).value, x) {
          if x != x0 {
            assert x in tail;
            var h := env.hash(x).value;
            assert HasCandidate(env, m', h, x);
            var y :| y in m'[h] && Match(env, Some(x), Some(y));
            assert y in m[h];
          }
        }
      }
    }
  }

  /** Lines 179-206: an accepted unordered comparison pairs every hashed element
      of either side with a matching element of the same hash on the other
      side. In particular it is rejected when a hashed right-hand element has
      no bucket or matches no candidate in it, and when a bucket is left over. */
  lemma AcceptedPairsHashedElements(env: Env, s1: seq<Node>, s2: seq<Node>)
    requires WellFormed(env)
    requires MatchesInAnyOrder(env, s1, s2)
    ensures |s1| == |s2|
    ensures forall y :: y in s1 && env.hash(y).Some? ==> CoveredBy(env, s2, env.hash(y).value, y)
    ensures forall x :: x in s2 && env.hash(x).Some? ==>
      exists y :: y in s1 && env.hash(y) == env.hash(x) && Match(env, Some(x), Some(y))
  {
    var m := Buckets(env, s1);
    BucketsContents(env, s1);
    ConsumeCoversBuckets(env, m, s2);
    ConsumeFindsCandidates(env, m, s2);
    forall y | y in s1 && env.hash(y).Some? ensures CoveredBy(env, s2, env.hash(y).value, y) {
      var h := env.hash(y).value;
      WithHashMembers(env, s1, h);
      assert y in WithHash(env, s1, h);
      assert y in m[h];
    }
    forall x | x in s2 && env.hash(x).Some?
      ensures exists y :: y in s1 && env.hash(y) == env.hash(x) && Match(env, Some(x), Some(y))
    {
      var h := env.hash(x).value;
      assert HasCandidate(env, m, h, x);
      var y :| y in m[h] && Match(env, Some(x), Some(y));
      WithHashMembers(env, s1, h);
      assert y in WithHash(env, s1, h);
    }
  }

  /** The hashed elements of a list, in order. */
  function Hashed(env: Env, s: seq<Node>): (r: seq<Node>)
    ensures forall x :: x in r <==> x in s && env.hash(x).Some?
  {
    if s == [] then []
    else (if env.hash(s[0]).Some? then [s[0]] else []) + Hashed(env, s[1..])
  }

  lemma {:induction false} WithHashOfHashed(env: Env, s: seq<Node>, h: int)
    ensures WithHash(env, Hashed(env, s), h) == WithHash(env, s, h)
  {
    if s != [] {
      WithHashOfHashed(env, s[1..], h);
      var rest := Hashed(env, s[1..]);
      if env.hash(s[0]).Some? {
        assert Hashed(env, s) == [s[0]] + rest;
        assert Hashed(env, s)[0] == s[0] && Hashed(env, s)[1..] == rest;
      } else {
        assert Hashed(env, s) == rest;
      }
    }
  }

  lemma {:induction false} ConsumeOfHashed(env: Env, m: map<int, seq<Node>>, s2: seq<Node>)
    requires WellFormed(env)
    ensures Consume(env, m, s2) == Consume(env, m, Hashed(env, s2))
    decreases |s2|
  {
    if s2 != [] {
      var hs := Hashed(env, s2);
      var rest := Hashed(env, s2[1..]);
      if env.hash(s2[0]).Some? {
        assert hs == [s2[0]] + rest;
        assert hs[0] == s2[0] && hs[1..] == rest;
        var h := env.hash(s2[0]).value;
        if h in m {
          var left := RemoveMatching(env, s2[0], m[h]);
          var m' := ConsumeStep(env, m, s2[0], h);
          ConsumeOfHashed(env, m', s2[1..]);
          assert Consume(env, m, s2) == (|left| < |m[h]| && Consume(env, m', s2[1..]));
          assert Consume(env, m, hs) == (|left| < |m[h]| && Consume(env, m', rest));
        }
      } else {
        assert hs == rest;
        ConsumeOfHashed(env, m, s2[1..]);
      }
    }
  }

  lemma SameBuckets(env: Env, s: seq<Node>)
    ensures Buckets(env, s) == Buckets(env, Hashed(env, s))
  {
    forall h ensures WithHash(env, s, h) == WithHash(env, Hashed(env, s), h) {
      WithHashOfHashed(env, s, h);
    }
    BucketsDetermined(env, s, Hashed(env, s));
  }

  /** Lines 165-206: elements the hasher gives no result for are ignored on
      both sides, except that they count towards the size check at line 158. */
  lemma UnhashedElementsIgnored(env: Env, s1: seq<Node>, s2: seq<Node>)
    requires WellFormed(env)
    ensures MatchesInAnyOrder(env, s1, s2) <==>
      |s1| == |s2| && Consume(env, Buckets(env, Hashed(env, s1)), Hashed(env, s2))
  {
    SameBuckets(env, s1);
    ConsumeOfHashed(env, Buckets(env, s1), s2);
  }

  /** No element occurs twice in `s`. */
  ghost predicate NoRepeats(s: seq<Node>) {
    forall x :: multiset(s)[x] <= 1
  }

  lemma {:induction false} WithHashConcat(env: Env, a: seq<Node>, b: seq<Node>, h: int)
    ensures WithHash(env, a + b, h) == WithHash(env, a, h) + WithHash(env, b, h)
  {
    if a == [] {
      assert a + b == b;
    } else {
      var head := if env.hash(a[0]) == Some(h) then [a[0]] else [];
      assert (a + b)[0] == a[0] && (a + b)[1..] == a[1..] + b;
      WithHashConcat(env, a[1..], b, h);
      calc {
        WithHash(env, a + b, h);
        head + WithHash(env, a[1..] + b, h);
        head + (WithHash(env, a[1..], h) + WithHash(env, b, h));
        (head + WithHash(env, a[1..], h)) + WithHash(env, b, h);
      }
    }
  }

  /** The buckets of `a + [x] + b` and of `a + b` differ only in `x`. */
  lemma WithHashAround(env: Env, a: seq<Node>, x: Node, b: seq<Node>, h: int)
    ensures WithHash(env, a + [x] + b, h) ==
      WithHash(env, a, h) + (if env.hash(x) == Some(h) then [x] else []) + WithHash(env, b, h)
    ensures WithHash(env, a + b, h) == WithHash(env, a, h) + WithHash(env, b, h)
  {
    var single := if env.hash(x) == Some(h) then [x] else [];
    assert WithHash(env, [x], h) == single by {
      assert [x][1..] == [];
    }
    WithHashConcat(env, a + [x], b, h);
    WithHashConcat(env, a, [x], h);
    WithHashConcat(env, a, b, h);
  }

  lemma RemoveMatchingSnoc(env: Env, x: Node, init: seq<Node>, c: Node)
    requires WellFormed(env)
    ensures RemoveMatching(env, x, init + [c]) ==
      if Match(env, Some(x), Some(c)) then RemoveMatching(env, x, init) else RemoveMatching(env, x, init) + [c]
  {
    assert (init + [c])[..|init|] == init;
  }

  lemma {:induction false} RemoveMatchingConcat(env: Env, x: Node, a: seq<Node>, b: seq<Node>)
    requires WellFormed(env)
    ensures RemoveMatching(env, x, a + b) == RemoveMatching(env, x, a) + RemoveMatching(env, x, b)
    decreases |b|
  {
    if b == [] {
      assert a + b == a;
    } else {
      var init, c := b[..|b| - 1], b[|b| - 1];
      assert b == init + [c];
      assert a + b == (a + init) + [c];
      RemoveMatchingSnoc(env, x, a + init, c);
      RemoveMatchingSnoc(env, x, init, c);
      RemoveMatchingConcat(env, x, a, init);
    }
  }

  lemma {:induction false} RemoveMatchingNone(env: Env, x: Node, list: seq<Node>)
    requires WellFormed(env)
    requires forall c :: c in list ==> !Match(env, Some(x), Some(c))
    ensures RemoveMatching(env, x, list) == list
    decreases |list|
  {
    if list != [] {
      var init, c := list[..|list| - 1], list[|list| - 1];
      assert list == init + [c];
      RemoveMatchingNone(env, x, init);
    }
  }

  /** An element that matches itself and nothing else around it removes
      exactly itself. */
  lemma RemoveMatchingOnlySelf(env: Env, x: Node, wa: seq<Node>, wb: seq<Node>)
    requires WellFormed(env)
    requires Match(env, Some(x), Some(x))
    requires forall c :: c in wa + wb ==> !Match(env, Some(x), Some(c))
    ensures RemoveMatching(env, x, wa + [x] + wb) == wa + wb
  {
    RemoveMatchingConcat(env, x, wa + [x], wb);
    RemoveMatchingSnoc(env, x, wa, x);
    RemoveMatchingNone(env, x, wa);
    RemoveMatchingNone(env, x, wb);
  }

  /** Buckets are determined by which elements have each hash. */
  lemma BucketsDetermined(env: Env, r: seq<Node>, r': seq<Node>)
    requires forall h :: WithHash(env, r, h) == WithHash(env, r', h)
    ensures Buckets(env, r) == Buckets(env, r')
  {
    var m, m' := Buckets(env, r), Buckets(env, r');
    BucketsContents(env, r);
    BucketsContents(env, r');
    forall h ensures (h in m <==> h in m') && (h in m ==> m[h] == m'[h]) {
      assert WithHash(env, r, h) == WithHash(env, r', h);
    }
    assert m.Keys == m'.Keys;
  }

  /** Replacing bucket `h` by `rest` (dropping it when `rest` is empty) gives
      the buckets of a list that differs only in bucket `h`. */
  lemma BucketsReplaced(env: Env, r: seq<Node>, r': seq<Node>, h: int, rest: seq<Node>)
    requires WithHash(env, r, h) != []
    requires WithHash(env, r', h) == rest
    requires forall h' :: h' != h ==> WithHash(env, r', h') == WithHash(env, r, h')
    ensures (if |rest| == 0 then Buckets(env, r) - {h} else Buckets(env, r)[h := rest]) == Buckets(env, r')
  {
    var m, m' := Buckets(env, r), Buckets(env, r');
    BucketsContents(env, r);
    BucketsContents(env, r');
    var u := if |rest| == 0 then m - {h} else m[h := rest];
    forall h' ensures (h' in u <==> h' in m') && (h' in u ==> u[h'] == m'[h']) {
    }
    assert u.Keys == m'.Keys;
  }

  /** Removing a hashed element that matches only itself takes it out of its
      bucket and leaves the buckets of the remaining list. */
  lemma ConsumeStepRemovesOwn(env: Env, s1: seq<Node>, a: seq<Node>, x: Node, b: seq<Node>, h: int)
    requires WellFormed(env)
    requires forall y, z :: y in s1 && z in s1 ==> (Match(env, Some(y), Some(z)) <==> y == z)
    requires forall y :: y in a + [x] + b ==> y in s1
    requires x !in a && x !in b
    requires env.hash(x) == Some(h)
    ensures h in Buckets(env, a + [x] + b)
    ensures |RemoveMatching(env, x, Buckets(env, a + [x] + b)[h])| < |Buckets(env, a + [x] + b)[h]|
    ensures ConsumeStep(env, Buckets(env, a + [x] + b), x, h) == Buckets(env, a + b)
  {
    var r, r' := a + [x] + b, a + b;
    var wa, wb := WithHash(env, a, h), WithHash(env, b, h);
    forall h' | h' != h ensures WithHash(env, r', h') == WithHash(env, r, h') {
      WithHashAround(env, a, x, b, h');
    }
    WithHashAround(env, a, x, b, h);
    WithHashMembers(env, a, h);
    WithHashMembers(env, b, h);
    forall c | c in wa + wb ensures !Match(env, Some(x), Some(c)) {
      assert c in a || c in b;
    }
    assert x in r;
    RemoveMatchingOnlySelf(env, x, wa, wb);
    BucketsContents(env, r);
    BucketsReplaced(env, r, r', h, wa + wb);
  }

  /** Removing an element the hasher gives no result for leaves the buckets
      unchanged. */
  lemma BucketsWithoutUnhashed(env: Env, a: seq<Node>, x: Node, b: seq<Node>)
    requires env.hash(x).None?
    ensures Buckets(env, a + [x] + b) == Buckets(env, a + b)
  {
    forall h ensures WithHash(env, a + [x] + b, h) == WithHash(env, a + b, h) {
      WithHashAround(env, a, x, b, h);
    }
    BucketsDetermined(env, a + [x] + b, a + b);
  }

  /** The first right-hand element `x`, which matches only itself among the
      left-hand elements, consumes exactly itself from the buckets. */
  lemma ConsumeOwnElement(env: Env, s1: seq<Node>, a: seq<Node>, x: Node, b: seq<Node>, tail: seq<Node>)
    requires WellFormed(env)
    requires forall y, z :: y in s1 && z in s1 ==> (Match(env, Some(y), Some(z)) <==> y == z)
    requires forall y :: y in a + [x] + b ==> y in s1
    requires x !in a && x !in b
    ensures Consume(env, Buckets(env, a + [x] + b), [x] + tail) == Consume(env, Buckets(env, a + b), tail)
  {
    assert ([x] + tail)[0] == x && ([x] + tail)[1..] == tail;
    if env.hash(x).None? {
      BucketsWithoutUnhashed(env, a, x, b);
    } else {
      ConsumeStepRemovesOwn(env, s1, a, x, b, env.hash(x).value);
    }
  }

  /** Taking out of `l2` an occurrence of the first element of `l1` leaves a
      permutation of the rest of `l1`. */
  lemma PermutationWithout(l1: seq<Node>, l2: seq<Node>, k: nat)
    requires multiset(l1) == multiset(l2)
    requires l1 != [] && k < |l2| && l2[k] == l1[0]
    ensures l2 == l2[..k] + [l1[0]] + l2[k + 1..]
    ensures multiset(l2) == multiset(l2[..k]) + multiset{l1[0]} + multiset(l2[k + 1..])
    ensures multiset(l2[..k] + l2[k + 1..]) == multiset(l1[1..])
  {
    var x, a, b := l1[0], l2[..k], l2[k + 1..];
    assert l1 == [x] + l1[1..];
    assert l2 == a + [x] + b;
    assert multiset(l1) == multiset{x} + multiset(l1[1..]);
    assert multiset(a + b) == multiset(a) + multiset(b);
    forall y ensures multiset(a + b)[y] == multiset(l1[1..])[y] {
      assert multiset(l1)[y] == multiset(l2)[y];
    }
    assert multiset(a + b) == multiset(l1[1..]);
  }

  /** Taking out of `r` the one occurrence of the first element of `s2`
      keeps the two lists permutations of each other. */
  lemma RemoveOccurrence(r: seq<Node>, s2: seq<Node>, k: nat)
    requires NoRepeats(r)
    requires multiset(r) == multiset(s2)
    requires s2 != [] && k < |r| && r[k] == s2[0]
    ensures r == r[..k] + [s2[0]] + r[k + 1..]
    ensures s2[0] !in r[..k] && s2[0] !in r[k + 1..]
    ensures NoRepeats(r[..k] + r[k + 1..])
    ensures multiset(r[..k] + r[k + 1..]) == multiset(s2[1..])
  {
    var x, a, b := s2[0], r[..k], r[k + 1..];
    PermutationWithout(s2, r, k);
    forall y ensures multiset(a + b)[y] <= 1 {
      assert multiset(r)[y] <= 1;
    }
    assert multiset(r)[x] <= 1;
  }

  /** Lines 158-206: when every left-hand element matches itself and nothing
      else, and no element is repeated, any reordering of the left-hand
      elements is accepted. */
  lemma {:induction false} ConsumePermutation(env: Env, s1: seq<Node>, r: seq<Node>, s2: seq<Node>)
    requires WellFormed(env)
    requires forall x, y :: x in s1 && y in s1 ==> (Match(env, Some(x), Some(y)) <==> x == y)
    requires forall x :: x in r ==> x in s1
    requires NoRepeats(r)
    requires multiset(r) == multiset(s2)
    ensures Consume(env, Buckets(env, r), s2)
    decreases |s2|
  {
    if s2 == [] {
      assert |r| == |multiset(r)| == 0;
    } else {
      assert s2[0] in multiset(r);
      var k :| 0 <= k < |r| && r[k] == s2[0];
      RemoveOccurrence(r, s2, k);
      assert s2 == [s2[0]] + s2[1..];
      ConsumePermutation(env, s1, r[..k] + r[k + 1..], s2[1..]);
      ConsumeOwnElement(env, s1, r[..k], s2[0], r[k + 1..], s2[1..]);
    }
  }

  /** Order-insensitivity of lines 138-207: a reordering of a list whose
      elements occur once and each match only themselves is accepted. */
  lemma PermutationAccepted(env: Env, s1: seq<Node>, s2: seq<Node>)
    requires WellFormed(env)
    requires multiset(s1) == multiset(s2)
    requires NoRepeats(s1)
    requires forall x, y :: x in s1 && y in s1 ==> (Match(env, Some(x), Some(y)) <==> x == y)
    ensures MatchesInAnyOrder(env, s1, s2)
  {
    assert |s1| == |multiset(s1)| == |multiset(s2)| == |s2|;
    ConsumePermutation(env, s1, s1, s2);
  }

  // ---------------------------------------------------------------------------
  // doMatchInAnyOrder: the imperative code

  /** Lines 142-156: drains a cursor, keeping its non-null elements. */
  method CollectNonNull(it: NodeIterator) returns (elements: seq<Node>)
    requires it.Valid()
    modifies it
    ensures it.Valid() && !it.HasNext()
    ensures elements == NonNull(it.elements[old(it.pos)..])
  {
    ghost var start := it.pos;
    elements := [];
    while it.HasNext()
      invariant it.Valid() && start <= it.pos
      invariant elements == NonNull(it.elements[start..it.pos])
      decreases |it.elements| - it.pos
    {
      var element := it.Current();
      if element.Some? {
        elements := elements + [element.value];
      }
      assert it.elements[start..it.pos + 1] == it.elements[start..it.pos] + [element];
      NonNullSnoc(it.elements[start..it.pos], element);
      it.Advance();
    }
    assert it.elements[start..it.pos] == it.elements[start..];
  }

  /** Lines 162-177: builds the bucket map of the left-hand elements. */
  method BuildBuckets(env: Env, elements1: seq<Node>) returns (hash2element: map<int, seq<Node>>)
    ensures hash2element == Buckets(env, elements1)
  {
    hash2element := map[];
    ghost var seen: seq<Node> := [];
    var k := 0;
    while k < |elements1|
      invariant 0 <= k <= |elements1|
      invariant seen == elements1[..k]
      invariant hash2element == Buckets(env, seen)
    {
      var element := elements1[k];
      BucketsAppend(env, seen, element);
      var result := env.hash(element);
      if result.Some? {
        var hash := result.value;
        var list := if hash in hash2element then hash2element[hash] else [];
        hash2element := hash2element[hash := list + [element]];
      }
      seen := seen + [element];
      k := k + 1;
    }
    assert elements1[..k] == elements1;
  }

  lemma BucketsAppend(env: Env, s: seq<Node>, x: Node)
    ensures Buckets(env, s + [x]) == match env.hash(x)
      case None => Buckets(env, s)
      case Some(h) => Buckets(env, s)[h := (if h in Buckets(env, s) then Buckets(env, s)[h] else []) + [x]]
  {
    assert (s + [x])[..|s|] == s;
  }

  /** Lines 187-197: removes from a bucket every candidate `element` matches;
      `found` tells whether there was one. */
  method RemoveCandidates(env: Env, element: Node, list: seq<Node>) returns (found: bool, kept: seq<Node>)
    requires WellFormed(env)
    ensures kept == RemoveMatching(env, element, list)
    ensures found <==> |kept| < |list|
    ensures found <==> exists c :: c in list && Match(env, Some(element), Some(c))
  {
    found := false;
    kept := [];
    var t := 0;
    while t < |list|
      invariant 0 <= t <= |list|
      invariant kept == RemoveMatching(env, element, list[..t])
      invariant found <==> |kept| < t
    {
      RemoveMatchingStep(env, element, list, t);
      if Match(env, Some(element), Some(list[t])) {
        found := true;
      } else {
        kept := kept + [list[t]];
      }
      t := t + 1;
    }
    assert list[..t] == list;
    RemoveMatchingMembers(env, element, list);
  }

  /** Lines 158-206 on the collected elements: size check, bucket map, then
      consumption of the buckets by the right-hand elements. */
  method MatchCollected(env: Env, elements1: seq<Node>, elements2: seq<Node>) returns (r: bool)
    requires WellFormed(env)
    ensures r == MatchesInAnyOrder(env, elements1, elements2)
    ensures |elements1| != |elements2| ==> !r
  {
    if |elements1| != |elements2| {
      return false;
    }
    var hash2element := BuildBuckets(env, elements1);
    ghost var goal := Consume(env, hash2element, elements2);
    var k := 0;
    while k < |elements2|
      invariant 0 <= k <= |elements2|
      invariant Consume(env, hash2element, elements2[k..]) == goal
    {
      var element := elements2[k];
      assert elements2[k..][0] == element && elements2[k..][1..] == elements2[k + 1..];
      var result := env.hash(element);
      if result.Some? {
        var hash := result.value;
        if hash !in hash2element {
          return false;
        }
        var found, kept := RemoveCandidates(env, element, hash2element[hash]);
        if !found {
          return false;
        }
        if |kept| == 0 {
          hash2element := hash2element - {hash};
        } else {
          hash2element := hash2element[hash := kept];
        }
      }
      k := k + 1;
    }
    return |hash2element| == 0;
  }

  /** doMatchInAnyOrder: drains both cursors, then compares their non-null
      elements in any order. */
  method DoMatchInAnyOrder(env: Env, it1: NodeIterator, it2: NodeIterator) returns (r: bool)
    requires WellFormed(env) && it1.Valid() && it2.Valid() && it1 != it2
    modifies it1, it2
    ensures it1.Valid() && it2.Valid() && !it1.HasNext() && !it2.HasNext()
    ensures r == MatchesInAnyOrder(env, NonNull(it1.elements[old(it1.pos)..]), NonNull(it2.elements[old(it2.pos)..]))
  {
    var elements1 := CollectNonNull(it1);
    var elements2 := CollectNonNull(it2);
    r := MatchCollected(env, elements1, elements2);
  }

  // ---------------------------------------------------------------------------
  // The candidate loop without a break, and the first-fit loop it evidently means

  /** As written, the candidate loop removes every candidate the element
      matches, so a bucket holding two equivalent elements is emptied by the
      first of them and the second finds no bucket: a list of two equivalent
      hashed elements does not match itself. */
  lemma RepeatedElementRejected(env: Env, n: Node)
    requires WellFormed(env)
    requires env.hash(n).Some?
    requires Match(env, Some(n), Some(n))
    ensures !MatchesInAnyOrder(env, [n, n], [n, n])
  {
    var h := env.hash(n).value;
    var m := Buckets(env, [n, n]);
    BucketsContents(env, [n, n]);
    assert [n, n][1..] == [n] && [n][1..] == [];
    assert WithHash(env, [n], h) == [n];
    assert WithHash(env, [n, n], h) == [n, n];
    assert m[h] == [n, n];
    assert RemoveMatching(env, n, [n, n]) == [];
    assert ConsumeStep(env, m, n, h) == m - {h};
    assert !Consume(env, m - {h}, [n]);
  }

  /** The position of the first candidate `x` matches, or |list| if none. */
  function FirstMatch(env: Env, x: Node, list: seq<Node>): (k: nat)
    requires WellFormed(env)
    ensures k <= |list|
    ensures forall j :: 0 <= j < k ==> !Match(env, Some(x), Some(list[j]))
    ensures k < |list| ==> Match(env, Some(x), Some(list[k]))
  {
    if list == [] then 0
    else if Match(env, Some(x), Some(list[0])) then 0
    else 1 + FirstMatch(env, x, list[1..])
  }

  /** Lines 189-194 with the evidently intended break after the first removal:
      the bucket without the first candidate `x` matches, or None when `x`
      matches no candidate. */
  function RemoveFirstMatching(env: Env, x: Node, list: seq<Node>): (r: Option<seq<Node>>)
    requires WellFormed(env)
    ensures r.None? <==> forall c :: c in list ==> !Match(env, Some(x), Some(c))
    ensures r.Some? ==> |r.value| + 1 == |list|
  {
    var k := FirstMatch(env, x, list);
    if k == |list| then
      assert forall c :: c in list ==> !Match(env, Some(x), Some(c)) by {
        forall c | c in list ensures !Match(env, Some(x), Some(c)) {
          var j :| 0 <= j < |list| && list[j] == c;
        }
      }
      None
    else
      assert list[k] in list;
      Some(list[..k] + list[k + 1..])
  }

  /** Consume with first-fit removal: each hashed right-hand element consumes
      exactly one candidate. */
  function ConsumeFirstFit(env: Env, m: map<int, seq<Node>>, s2: seq<Node>): bool
    requires WellFormed(env)
    decreases |s2|
  {
    if s2 == [] then |m| == 0
    else
      match env.hash(s2[0])
      case None => ConsumeFirstFit(env, m, s2[1..])
      case Some(h) =>
        && h in m
        && var rest := RemoveFirstMatching(env, s2[0], m[h]);
        && rest.Some?
        && ConsumeFirstFit(env, if |rest.value| == 0 then m - {h} else m[h := rest.value], s2[1..])
  }

  /** The unordered comparison with first-fit removal. */
  function MatchesInAnyOrderFirstFit(env: Env, s1: seq<Node>, s2: seq<Node>): bool
    requires WellFormed(env)
  {
    |s1| == |s2| && ConsumeFirstFit(env, Buckets(env, s1), s2)
  }

  lemma WithHashCons(env: Env, x: Node, t: seq<Node>, h: int)
    ensures WithHash(env, [x] + t, h) == (if env.hash(x) == Some(h) then [x] else []) + WithHash(env, t, h)
  {
    assert ([x] + t)[0] == x && ([x] + t)[1..] == t;
  }

  lemma BucketsConsUnhashed(env: Env, x: Node, t: seq<Node>)
    requires env.hash(x).None?
    ensures Buckets(env, [x] + t) == Buckets(env, t)
  {
    assert ([x] + t)[0] == x && ([x] + t)[1..] == t;
    assert Hashed(env, [x] + t) == Hashed(env, t);
    SameBuckets(env, [x] + t);
    SameBuckets(env, t);
  }

  lemma BucketsConsHashed(env: Env, x: Node, t: seq<Node>, h0: int)
    requires env.hash(x) == Some(h0)
    ensures Buckets(env, [x] + t) == Buckets(env, t)[h0 := [x] + WithHash(env, t, h0)]
  {
    var b := Buckets(env, [x] + t);
    var u := Buckets(env, t)[h0 := [x] + WithHash(env, t, h0)];
    BucketsContents(env, [x] + t);
    BucketsContents(env, t);
    forall h ensures (h in b <==> h in u) && (h in b ==> b[h] == u[h]) {
      WithHashCons(env, x, t, h);
    }
    assert b.Keys == u.Keys;
  }

  /** First-fit removal of a candidate that matches itself takes the
      candidate at the front of its bucket. */
  lemma FirstFitRemovesFront(env: Env, x: Node, rest: seq<Node>)
    requires WellFormed(env)
    requires Match(env, Some(x), Some(x))
    ensures RemoveFirstMatching(env, x, [x] + rest) == Some(rest)
  {
    assert FirstMatch(env, x, [x] + rest) == 0;
    assert ([x] + rest)[..0] + ([x] + rest)[1..] == rest;
  }

  /** Consuming a list's own first element from its own buckets leaves the
      buckets of the rest of the list. */
  lemma FirstFitConsumesHead(env: Env, x: Node, t': seq<Node>, h: int)
    requires WellFormed(env)
    requires env.hash(x) == Some(h) && Match(env, Some(x), Some(x))
    ensures var m := Buckets(env, [x] + t');
      && h in m
      && RemoveFirstMatching(env, x, m[h]) == Some(WithHash(env, t', h))
      && (if |WithHash(env, t', h)| == 0 then m - {h} else m[h := WithHash(env, t', h)]) == Buckets(env, t')
  {
    BucketsConsHashed(env, x, t', h);
    var b' := Buckets(env, t');
    var rest := WithHash(env, t', h);
    BucketsContents(env, t');
    FirstFitRemovesFront(env, x, rest);
    assert h in b' <==> rest != [];
    assert h in b' ==> b'[h] == rest;
    RestoreBucket(b', h, [x] + rest, rest);
  }

  /** Overwriting a bucket and then putting back its old contents (or
      dropping it when it was absent) gives the original map. */
  lemma RestoreBucket(b: map<int, seq<Node>>, h: int, v: seq<Node>, rest: seq<Node>)
    requires h in b <==> rest != []
    requires h in b ==> b[h] == rest
    ensures (if |rest| == 0 then b[h := v] - {h} else b[h := v][h := rest]) == b
  {
  }

  lemma {:induction false} FirstFitConsumesOwnBuckets(env: Env, t: seq<Node>)
    requires WellFormed(env)
    requires forall y :: y in t ==> Match(env, Some(y), Some(y))
    ensures ConsumeFirstFit(env, Buckets(env, t), t)
    decreases |t|
  {
    if t != [] {
      var x, t' := t[0], t[1..];
      assert t == [x] + t';
      FirstFitConsumesOwnBuckets(env, t');
      if env.hash(x).None? {
        BucketsConsUnhashed(env, x, t');
      } else {
        assert x in t;
        FirstFitConsumesHead(env, x, t', env.hash(x).value);
      }
    }
  }

  /** With first-fit removal, a list whose elements each match themselves
      matches itself, repeated elements included (reorderings are
      FirstFitPermutationAccepted). */
  lemma FirstFitReflexive(env: Env, s: seq<Node>)
    requires WellFormed(env)
    requires forall y :: y in s ==> Match(env, Some(y), Some(y))
    ensures MatchesInAnyOrderFirstFit(env, s, s)
  {
    FirstFitConsumesOwnBuckets(env, s);
  }

  // Order-insensitivity of the corrected loop: when matching is an
  // equivalence on the elements, every reordering is accepted.

  /** Reflexivity, symmetry and transitivity of Match at one triple. */
  ghost predicate EquivalenceAt(env: Env, x: Node, y: Node, z: Node)
    requires WellFormed(env)
  {
    && Match(env, Some(x), Some(x))
    && (Match(env, Some(x), Some(y)) ==> Match(env, Some(y), Some(x)))
    && (Match(env, Some(x), Some(y)) && Match(env, Some(y), Some(z)) ==> Match(env, Some(x), Some(z)))
  }

  /** Match is reflexive, symmetric and transitive on the elements of `s`. */
  ghost predicate MatchIsEquivalence(env: Env, s: seq<Node>)
    requires WellFormed(env)
  {
    forall x, y, z {:trigger EquivalenceAt(env, x, y, z)} :: x in s && y in s && z in s ==> EquivalenceAt(env, x, y, z)
  }

  /** The number of elements of `s` with hash `h` that `z` matches. */
  function CountMatching(env: Env, z: Node, h: int, s: seq<Node>): nat
    requires WellFormed(env)
  {
    if s == [] then 0
    else
      var own := if env.hash(s[0]) == Some(h) && Match(env, Some(z), Some(s[0])) then 1 else 0;
      own + CountMatching(env, z, h, s[1..])
  }

  /** Bucket `h` of `m`, empty when there is none. */
  function Bucket(m: map<int, seq<Node>>, h: int): seq<Node> {
    if h in m then m[h] else []
  }

  /** The buckets of `m` are non-empty and hold elements of `s1` under their
      own hash. */
  ghost predicate BucketsOver(env: Env, s1: seq<Node>, m: map<int, seq<Node>>) {
    && (forall h :: h in m ==> m[h] != [])
    && (forall h, y :: h in m && y in m[h] ==> y in s1 && env.hash(y) == Some(h))
  }

  /** For every hash and every element of `s1`, the buckets of `m` and the
      right-hand elements `s2` hold equally many elements it matches. */
  ghost predicate CountsAgree(env: Env, s1: seq<Node>, m: map<int, seq<Node>>, s2: seq<Node>)
    requires WellFormed(env)
  {
    forall z, h :: z in s1 ==> CountMatching(env, z, h, Bucket(m, h)) == CountMatching(env, z, h, s2)
  }

  lemma CountCons(env: Env, z: Node, h: int, x: Node, t: seq<Node>)
    requires WellFormed(env)
    ensures CountMatching(env, z, h, [x] + t) ==
      (if env.hash(x) == Some(h) && Match(env, Some(z), Some(x)) then 1 else 0) + CountMatching(env, z, h, t)
  {
    assert ([x] + t)[0] == x && ([x] + t)[1..] == t;
  }

  /** Taking out the element at `k` lowers the count by what it contributed. */
  lemma {:induction false} CountWithout(env: Env, z: Node, h: int, l: seq<Node>, k: nat)
    requires WellFormed(env)
    requires k < |l|
    ensures CountMatching(env, z, h, l) ==
      CountMatching(env, z, h, l[..k] + l[k + 1..])
      + (if env.hash(l[k]) == Some(h) && Match(env, Some(z), Some(l[k])) then 1 else 0)
  {
    if k == 0 {
      assert l[..0] + l[1..] == l[1..];
    } else {
      var t := l[..k] + l[k + 1..];
      assert t[0] == l[0] && t[1..] == l[1..][..k - 1] + l[1..][k..];
      assert l[1..][k - 1] == l[k];
      CountWithout(env, z, h, l[1..], k - 1);
    }
  }

  /** The count depends only on the multiset of elements. */
  lemma {:induction false} CountOfPermutation(env: Env, z: Node, h: int, l1: seq<Node>, l2: seq<Node>)
    requires WellFormed(env)
    requires multiset(l1) == multiset(l2)
    ensures CountMatching(env, z, h, l1) == CountMatching(env, z, h, l2)
    decreases |l1|
  {
    if l1 == [] {
      assert |l2| == |multiset(l2)| == 0;
    } else {
      var x := l1[0];
      assert l1 == [x] + l1[1..];
      assert x in multiset(l2);
      var k :| 0 <= k < |l2| && l2[k] == x;
      PermutationWithout(l1, l2, k);
      CountOfPermutation(env, z, h, l1[1..], l2[..k] + l2[k + 1..]);
      CountWithout(env, z, h, l2, k);
    }
  }

  /** Only elements with hash `h` count, so a list and its bucket `h` agree. */
  lemma {:induction false} CountOfBucket(env: Env, z: Node, h: int, s: seq<Node>)
    requires WellFormed(env)
    ensures CountMatching(env, z, h, WithHash(env, s, h)) == CountMatching(env, z, h, s)
  {
    if s != [] {
      CountOfBucket(env, z, h, s[1..]);
      if env.hash(s[0]) == Some(h) {
        CountCons(env, z, h, s[0], WithHash(env, s[1..], h));
      } else {
        assert WithHash(env, s, h) == WithHash(env, s[1..], h);
      }
    }
  }

  /** A non-empty bucket counts its first element, which matches itself. */
  lemma FirstOfBucketCounts(env: Env, s1: seq<Node>, m: map<int, seq<Node>>, h: int)
    requires WellFormed(env)
    requires MatchIsEquivalence(env, s1)
    requires BucketsOver(env, s1, m)
    ensures h in m ==> m[h][0] in s1 && CountMatching(env, m[h][0], h, Bucket(m, h)) > 0
  {
    if h in m {
      var y := m[h][0];
      assert y in m[h];
      assert EquivalenceAt(env, y, y, y);
    }
  }

  /** A positive count means `z` matches some candidate. */
  lemma {:induction false} CountFindsCandidate(env: Env, z: Node, h: int, l: seq<Node>)
    requires WellFormed(env)
    requires CountMatching(env, z, h, l) > 0
    ensures exists c :: c in l && Match(env, Some(z), Some(c))
  {
    if !(env.hash(l[0]) == Some(h) && Match(env, Some(z), Some(l[0]))) {
      CountFindsCandidate(env, z, h, l[1..]);
      var c :| c in l[1..] && Match(env, Some(z), Some(c));
      assert c in l;
    }
  }

  /** Under an equivalence, two matching elements are matched by the same
      elements. */
  lemma SameMatchers(env: Env, s1: seq<Node>, x: Node, c: Node)
    requires WellFormed(env)
    requires MatchIsEquivalence(env, s1)
    requires x in s1 && c in s1 && Match(env, Some(x), Some(c))
    ensures forall z :: z in s1 ==> (Match(env, Some(z), Some(c)) <==> Match(env, Some(z), Some(x)))
  {
    forall z | z in s1 ensures Match(env, Some(z), Some(c)) <==> Match(env, Some(z), Some(x)) {
      assert EquivalenceAt(env, x, c, x) && EquivalenceAt(env, z, c, x) && EquivalenceAt(env, z, x, c);
    }
  }

  /** Removing from bucket `h` a candidate that the same elements match as
      `x` keeps the buckets over `s1`, and the counts in agreement once `x`
      is dropped from the right-hand side. */
  lemma CountsAfterRemoval(env: Env, s1: seq<Node>, m: map<int, seq<Node>>, x: Node, tail: seq<Node>, h: int, k: nat)
    requires WellFormed(env)
    requires env.hash(x) == Some(h)
    requires BucketsOver(env, s1, m)
    requires h in m && k < |m[h]|
    requires forall z :: z in s1 ==> (Match(env, Some(z), Some(m[h][k])) <==> Match(env, Some(z), Some(x)))
    requires CountsAgree(env, s1, m, [x] + tail)
    ensures var rest := m[h][..k] + m[h][k + 1..];
      CountsAgree(env, s1, if |rest| == 0 then m - {h} else m[h := rest], tail)
  {
    var l := m[h];
    var rest := l[..k] + l[k + 1..];
    var m' := if |rest| == 0 then m - {h} else m[h := rest];
    assert l[k] in l;
    forall z, h' | z in s1
      ensures CountMatching(env, z, h', Bucket(m', h')) == CountMatching(env, z, h', tail)
    {
      CountCons(env, z, h', x, tail);
      if h' == h {
        CountWithout(env, z, h, l, k);
      } else {
        assert Bucket(m', h') == Bucket(m, h');
      }
    }
  }

  /** Removing one candidate keeps the buckets over `s1`. */
  lemma BucketsOverAfterRemoval(env: Env, s1: seq<Node>, m: map<int, seq<Node>>, h: int, k: nat)
    requires BucketsOver(env, s1, m)
    requires h in m && k < |m[h]|
    ensures var rest := m[h][..k] + m[h][k + 1..];
      BucketsOver(env, s1, if |rest| == 0 then m - {h} else m[h := rest])
  {
    var l := m[h];
    assert forall y :: y in l[..k] + l[k + 1..] ==> y in l;
  }

  /** One step of the corrected loop keeps the counts in agreement. */
  lemma FirstFitStep(env: Env, s1: seq<Node>, m: map<int, seq<Node>>, x: Node, tail: seq<Node>, h: int)
    requires WellFormed(env)
    requires MatchIsEquivalence(env, s1)
    requires x in s1 && env.hash(x) == Some(h)
    requires BucketsOver(env, s1, m)
    requires CountsAgree(env, s1, m, [x] + tail)
    ensures h in m && RemoveFirstMatching(env, x, m[h]).Some?
    ensures var rest := RemoveFirstMatching(env, x, m[h]).value;
      var m' := if |rest| == 0 then m - {h} else m[h := rest];
      BucketsOver(env, s1, m') && CountsAgree(env, s1, m', tail)
  {
    assert EquivalenceAt(env, x, x, x);
    CountCons(env, x, h, x, tail);
    assert CountMatching(env, x, h, Bucket(m, h)) > 0;
    CountFindsCandidate(env, x, h, Bucket(m, h));
    var k := FirstMatch(env, x, m[h]);
    assert m[h][k] in m[h];
    SameMatchers(env, s1, x, m[h][k]);
    CountsAfterRemoval(env, s1, m, x, tail, h, k);
    BucketsOverAfterRemoval(env, s1, m, h, k);
  }

  /** The corrected loop accepts the right-hand elements whenever the counts
      agree. */
  lemma {:induction false} FirstFitAcceptsAgreeingCounts(env: Env, s1: seq<Node>, m: map<int, seq<Node>>, s2: seq<Node>)
    requires WellFormed(env)
    requires MatchIsEquivalence(env, s1)
    requires forall x :: x in s2 ==> x in s1
    requires BucketsOver(env, s1, m)
    requires CountsAgree(env, s1, m, s2)
    ensures ConsumeFirstFit(env, m, s2)
    decreases |s2|
  {
    if s2 == [] {
      forall h ensures h !in m {
        FirstOfBucketCounts(env, s1, m, h);
      }
      assert m.Keys == {};
    } else {
      var x, tail := s2[0], s2[1..];
      assert s2 == [x] + tail;
      if env.hash(x).None? {
        forall z, h | z in s1
          ensures CountMatching(env, z, h, Bucket(m, h)) == CountMatching(env, z, h, tail)
        {
          CountCons(env, z, h, x, tail);
        }
        FirstFitAcceptsAgreeingCounts(env, s1, m, tail);
      } else {
        var h := env.hash(x).value;
        FirstFitStep(env, s1, m, x, tail, h);
        var rest := RemoveFirstMatching(env, x, m[h]).value;
        FirstFitAcceptsAgreeingCounts(env, s1, if |rest| == 0 then m - {h} else m[h := rest], tail);
      }
    }
  }

  /** The buckets built from `s1` are buckets over `s1`. */
  lemma InitialBucketsOver(env: Env, s1: seq<Node>)
    ensures BucketsOver(env, s1, Buckets(env, s1))
  {
    var m := Buckets(env, s1);
    BucketsContents(env, s1);
    forall h | h in m ensures m[h] != [] && forall y :: y in m[h] ==> y in s1 && env.hash(y) == Some(h) {
      assert m[h] == WithHash(env, s1, h);
      WithHashMembers(env, s1, h);
    }
  }

  /** The buckets built from `s1` agree in their counts with any reordering
      of `s1`. */
  lemma InitialCountsAgree(env: Env, s1: seq<Node>, s2: seq<Node>)
    requires WellFormed(env)
    requires multiset(s1) == multiset(s2)
    ensures CountsAgree(env, s1, Buckets(env, s1), s2)
  {
    var m := Buckets(env, s1);
    BucketsContents(env, s1);
    forall z, h | z in s1 ensures CountMatching(env, z, h, Bucket(m, h)) == CountMatching(env, z, h, s2) {
      assert Bucket(m, h) == WithHash(env, s1, h);
      CountOfBucket(env, z, h, s1);
      CountOfPermutation(env, z, h, s1, s2);
    }
  }

  /** Lines 158-206 with the evidently intended break: when matching is an
      equivalence on the elements, any reordering of a list is accepted. */
  lemma FirstFitPermutationAccepted(env: Env, s1: seq<Node>, s2: seq<Node>)
    requires WellFormed(env)
    requires multiset(s1) == multiset(s2)
    requires MatchIsEquivalence(env, s1)
    ensures MatchesInAnyOrderFirstFit(env, s1, s2)
  {
    assert |s1| == |multiset(s1)| == |multiset(s2)| == |s2|;
    forall x | x in s2 ensures x in s1 {
      assert x in multiset(s2);
    }
    InitialBucketsOver(env, s1);
    InitialCountsAgree(env, s1, s2);
    FirstFitAcceptsAgreeingCounts(env, s1, Buckets(env, s1), s2);
  }
}

=== FILE: parameter_list_annotator.dfy ===
/**
 * The parameter-list annotator of the Python plugin: a visitor walks the
 * parameters of one function declaration in order, keeps the names it has
 * seen and five flags, and marks ordering anomalies on the parameters.
 *
 * The parameter list is flat (nested tuple parameters are not modelled); an
 * annotation is the index of the marked parameter and the kind of message.
 */
module ParameterListAnnotator {

  // ---------------------------------------------------------------------------
  // Parameters, messages and the visitor's state as a value

  /** What a named parameter is: plain, `*args` or `**kwargs`. */
  datatype ParamKind = Regular | PositionalContainer | KeywordContainer

  /** A parameter of the list: a named one, or the bare `*` of keyword-only
      arguments. */
  datatype Param =
    | Named(name: string, kind: ParamKind, hasDefault: bool)
    | SingleStar

  /** The messages the visitor can mark a parameter with. */
  datatype ErrorKind =
    | DuplicateParamName         // ANN.duplicate.param.name
    | StarredParamAfterKwParam   // ANN.starred.param.after.kwparam
    | NamedArgumentsAfterStar    // ANN.named.arguments.after.star
    | RegularParamAfterVararg    // ANN.regular.param.after.vararg
    | RegularParamAfterKeyword   // ANN.regular.param.after.keyword
    | NonDefaultParamAfterDefault // ANN.non.default.param.after.default

  /** One marked error: the index of the parameter and its message. */
  datatype Annotation = Annotation(index: nat, error: ErrorKind)

  /** The visitor's six fields, as a value. */
  datatype Flags = Flags(
    names: set<string>,
    hadPositionalContainer: bool,
    hadKeywordContainer: bool,
    hadDefaultValue: bool,
    hadSingleStar: bool,
    hadParamsAfterSingleStar: bool)

  /** The fields as the visitor is created. */
  const Initial := Flags({}, false, false, false, false, false)

  predicate IsRegular(p: Param) {
    p.Named? && p.kind == Regular
  }

  predicate IsKind(p: Param, kind: ParamKind) {
    p.Named? && p.kind == kind
  }

  /** The flags after visiting a named parameter of kind `kind` (lines 32-62). */
  function KindNext(f: Flags, kind: ParamKind, hasDefault: bool): Flags {
    match kind
    case PositionalContainer => f.(hadPositionalContainer := true)
    case KeywordContainer => f.(hadKeywordContainer := true)
    case Regular =>
      f.(hadParamsAfterSingleStar := f.hadParamsAfterSingleStar || f.hadSingleStar,
         hadDefaultValue := f.hadDefaultValue || hasDefault)
  }

  /** The fields after visiting `p`. */
  function Next(f: Flags, p: Param): Flags {
    match p
    case SingleStar => f.(hadSingleStar := true)
    case Named(name, kind, hasDefault) => KindNext(f.(names := f.names + {name}), kind, hasDefault)
  }

  /** The duplicate-name message for a named parameter (lines 28-30). */
  function DuplicateErrors(f: Flags, name: string): seq<ErrorKind> {
    if name in f.names then [DuplicateParamName] else []
  }

  /** The messages for a regular parameter after a container (lines 48-53). */
  function ContainerErrors(f: Flags, isPy3K: bool): seq<ErrorKind> {
    if f.hadPositionalContainer && !isPy3K then [RegularParamAfterVararg]
    else if f.hadKeywordContainer then [RegularParamAfterKeyword]
    else []
  }

  /** The message for a regular parameter without a default (lines 54-61). */
  function DefaultErrors(f: Flags, hasDefault: bool, isPy3K: bool): seq<ErrorKind> {
    if !hasDefault && f.hadDefaultValue && !f.hadSingleStar && (!isPy3K || !f.hadPositionalContainer)
    then [NonDefaultParamAfterDefault] else []
  }

  /** The messages that depend on the kind of a named parameter (lines 32-61). */
  function KindErrors(f: Flags, kind: ParamKind, hasDefault: bool, isPy3K: bool): seq<ErrorKind> {
    match kind
    case PositionalContainer =>
      if f.hadKeywordContainer then [StarredParamAfterKwParam] else []
    case KeywordContainer =>
      if f.hadSingleStar && !f.hadParamsAfterSingleStar then [NamedArgumentsAfterStar] else []
    case Regular =>
      ContainerErrors(f, isPy3K) + DefaultErrors(f, hasDefault, isPy3K)
  }

  lemma KindErrorsIgnoreNames(f: Flags, names: set<string>, kind: ParamKind, hasDefault: bool, isPy3K: bool)
    ensures KindErrors(f.(names := names), kind, hasDefault, isPy3K) == KindErrors(f, kind, hasDefault, isPy3K)
  {
  }

  /** The messages visiting `p` marks, in the order they are marked, given the
      fields before the visit. */
  function ErrorsFor(f: Flags, p: Param, last: bool, isPy3K: bool): seq<ErrorKind> {
    match p
    case SingleStar => if last then [NamedArgumentsAfterStar] else []
    case Named(name, kind, hasDefault) =>
      DuplicateErrors(f, name) + KindErrors(f, kind, hasDefault, isPy3K)
  }

  /** Which messages visiting `p` marks, one condition per message. */
  lemma ErrorsForContains(f: Flags, p: Param, last: bool, isPy3K: bool)
    ensures DuplicateParamName in ErrorsFor(f, p, last, isPy3K) <==> p.Named? && p.name in f.names
    ensures StarredParamAfterKwParam in ErrorsFor(f, p, last, isPy3K) <==>
      IsKind(p, PositionalContainer) && f.hadKeywordContainer
    ensures NamedArgumentsAfterStar in ErrorsFor(f, p, last, isPy3K) <==>
      || (IsKind(p, KeywordContainer) && f.hadSingleStar && !f.hadParamsAfterSingleStar)
      || (p.SingleStar? && last)
    ensures RegularParamAfterVararg in ErrorsFor(f, p, last, isPy3K) <==>
      IsRegular(p) && f.hadPositionalContainer && !isPy3K
    ensures RegularParamAfterKeyword in ErrorsFor(f, p, last, isPy3K) <==>
      IsRegular(p) && f.hadKeywordContainer && !(f.hadPositionalContainer && !isPy3K)
    ensures NonDefaultParamAfterDefault in ErrorsFor(f, p, last, isPy3K) <==>
      && IsRegular(p) && !p.hasDefault && f.hadDefaultValue && !f.hadSingleStar
      && (!isPy3K || !f.hadPositionalContainer)
  {
    if p.Named? {
      var dup, rest := DuplicateErrors(f, p.name), KindErrors(f, p.kind, p.hasDefault, isPy3K);
      assert ErrorsFor(f, p, last, isPy3K) == dup + rest;
      assert forall e :: e in dup + rest <==> e in dup || e in rest;
      if p.kind == Regular {
        var c, d := ContainerErrors(f, isPy3K), DefaultErrors(f, p.hasDefault, isPy3K);
        assert rest == c + d;
        assert forall e :: e in c + d <==> e in c || e in d;
      }
    }
  }

  /** The annotations of the messages `es` on parameter `index`. */
  function Tag(index: nat, es: seq<ErrorKind>): seq<Annotation> {
    seq(|es|, k requires 0 <= k < |es| => Annotation(index, es[k]))
  }

  lemma TagMember(index: nat, es: seq<ErrorKind>, a: Annotation)
    ensures a in Tag(index, es) <==> a.index == index && a.error in es
  {
    if a.index == index && a.error in es {
      var k :| 0 <= k < |es| && es[k] == a.error;
      assert Tag(index, es)[k] == a;
    }
  }

  lemma TagConcat(index: nat, es: seq<ErrorKind>, ds: seq<ErrorKind>)
    ensures Tag(index, es + ds) == Tag(index, es) + Tag(index, ds)
  {
  }

  /** Marking `es` and then `ds` on one parameter marks `es + ds`. */
  lemma TagAppend(prev: seq<Annotation>, index: nat, es: seq<ErrorKind>, ds: seq<ErrorKind>)
    ensures (prev + Tag(index, es)) + Tag(index, ds) == prev + Tag(index, es + ds)
  {
    TagConcat(index, es, ds);
  }

  /** The state only grows: no name is forgotten and no flag is cleared. */
  predicate Grows(f: Flags, g: Flags) {
    && f.names <= g.names
    && (f.hadPositionalContainer ==> g.hadPositionalContainer)
    && (f.hadKeywordContainer ==> g.hadKeywordContainer)
    && (f.hadDefaultValue ==> g.hadDefaultValue)
    && (f.hadSingleStar ==> g.hadSingleStar)
    && (f.hadParamsAfterSingleStar ==> g.hadParamsAfterSingleStar)
  }

  /** Visiting a parameter only grows the fields. */
  lemma NextGrows(f: Flags, p: Param)
    ensures Grows(f, Next(f, p))
  {
  }

  // ---------------------------------------------------------------------------
  // The fields described by the parameters already visited

  /** The names of the named parameters before index `i`. */
  function NamesBefore(ps: seq<Param>, i: nat): set<string>
    requires i <= |ps|
  {
    set k | 0 <= k < i && ps[k].Named? :: ps[k].name
  }

  /** Some named parameter of kind `kind` comes before index `i`. */
  predicate SawKind(ps: seq<Param>, i: nat, kind: ParamKind)
    requires i <= |ps|
  {
    exists k :: 0 <= k < i && IsKind(ps[k], kind)
  }

  /** Some regular parameter with a default value comes before index `i`. */
  predicate SawDefault(ps: seq<Param>, i: nat)
    requires i <= |ps|
  {
    exists k :: 0 <= k < i && IsRegular(ps[k]) && ps[k].hasDefault
  }

  /** A bare `*` comes before index `i`. */
  predicate SawSingleStar(ps: seq<Param>, i: nat)
    requires i <= |ps|
  {
    exists k :: 0 <= k < i && ps[k].SingleStar?
  }

  /** A regular parameter follows a bare `*`, both before index `i`. */
  predicate SawRegularAfterSingleStar(ps: seq<Param>, i: nat)
    requires i <= |ps|
  {
    exists k :: 0 <= k < i && IsRegular(ps[k]) && SawSingleStar(ps, k)
  }

  /** What the six fields mean after the parameters before index `i`. */
  function History(ps: seq<Param>, i: nat): Flags
    requires i <= |ps|
  {
    Flags(NamesBefore(ps, i),
          SawKind(ps, i, PositionalContainer),
          SawKind(ps, i, KeywordContainer),
          SawDefault(ps, i),
          SawSingleStar(ps, i),
          SawRegularAfterSingleStar(ps, i))
  }

  /** The fields of a visitor that has visited the parameters before index
      `i`, one after the other. */
  function FlagsBefore(ps: seq<Param>, i: nat): Flags
    requires i <= |ps|
  {
    if i == 0 then Initial else Next(FlagsBefore(ps, i - 1), ps[i - 1])
  }

  /** The messages marked on parameter `i` of the whole list. */
  function ErrorsAt(ps: seq<Param>, i: nat, isPy3K: bool): seq<ErrorKind>
    requires i < |ps|
  {
    ErrorsFor(FlagsBefore(ps, i), ps[i], i == |ps| - 1, isPy3K)
  }

  /** The messages of every parameter of the list. */
  function ErrorLists(ps: seq<Param>, isPy3K: bool): seq<seq<ErrorKind>> {
    seq(|ps|, i requires 0 <= i < |ps| => ErrorsAt(ps, i, isPy3K))
  }

  /** The messages of the first `n` lists of `ess`, each tagged with its
      position, in order. */
  function TagAll(ess: seq<seq<ErrorKind>>, n: nat): seq<Annotation>
    requires n <= |ess|
  {
    if n == 0 then [] else TagAll(ess, n - 1) + Tag(n - 1, ess[n - 1])
  }

  /** The annotations marked on the first `n` parameters, in order. */
  function Annotations(ps: seq<Param>, isPy3K: bool, n: nat): seq<Annotation>
    requires n <= |ps|
  {
    TagAll(ErrorLists(ps, isPy3K), n)
  }

  // ---------------------------------------------------------------------------
  // The visitor

  /** The anonymous visitor of visitPyParameterList. `errors` stands for the
      markError calls made so far. */
  class ParamVisitor {
    const isPy3K: bool
    var parameterNames: set<string>
    var hadPositionalContainer: bool
    var hadKeywordContainer: bool
    var hadDefaultValue: bool
    var hadSingleStar: bool
    var hadParamsAfterSingleStar: bool
    var errors: seq<Annotation>

    function Snapshot(): Flags
      reads this
    {
      Flags(parameterNames, hadPositionalContainer, hadKeywordContainer,
            hadDefaultValue, hadSingleStar, hadParamsAfterSingleStar)
    }

    constructor(isPy3K: bool)
      ensures this.isPy3K == isPy3K
      ensures Snapshot() == Initial && errors == []
    {
      this.isPy3K := isPy3K;
      parameterNames := {};
      hadPositionalContainer := false;
      hadKeywordContainer := false;
      hadDefaultValue := false;
      hadSingleStar := false;
      hadParamsAfterSingleStar := false;
      errors := [];
    }

    /** markError: marks parameter `index` with `error`. */
    method MarkError(index: nat, error: ErrorKind)
      modifies this
      ensures Snapshot() == old(Snapshot())
      ensures errors == old(errors) + [Annotation(index, error)]
    {
      errors := errors + [Annotation(index, error)];
    }

    /** visitNamedParameter: checks the parameter against the fields, then
        records it. */
    method VisitNamedParameter(index: nat, name: string, kind: ParamKind, hasDefault: bool, first: bool, last: bool)
      modifies this
      ensures Snapshot() == Next(old(Snapshot()), Named(name, kind, hasDefault))
      ensures errors == old(errors) + Tag(index, ErrorsFor(old(Snapshot()), Named(name, kind, hasDefault), last, isPy3K))
      ensures Grows(old(Snapshot()), Snapshot())
    {
      ghost var before := Snapshot();
      ghost var errors0 := errors;
      VisitName(index, name);
      KindErrorsIgnoreNames(before, before.names + {name}, kind, hasDefault, isPy3K);
      VisitKind(index, kind, hasDefault);
      TagAppend(errors0, index, DuplicateErrors(before, name), KindErrors(before, kind, hasDefault, isPy3K));
      NextGrows(before, Named(name, kind, hasDefault));
    }

    /** Lines 28-31: marks a name already seen, then records the name. */
    method VisitName(index: nat, name: string)
      modifies this
      ensures Snapshot() == old(Snapshot()).(names := old(parameterNames) + {name})
      ensures errors == old(errors) + Tag(index, DuplicateErrors(old(Snapshot()), name))
    {
      if name in parameterNames {
        MarkError(index, DuplicateParamName);
      }
      parameterNames := parameterNames + {name};
    }

    /** Lines 32-62: the checks and updates that depend on the kind of a named
        parameter. */
    method VisitKind(index: nat, kind: ParamKind, hasDefault: bool)
      modifies this
      ensures Snapshot() == KindNext(old(Snapshot()), kind, hasDefault)
      ensures errors == old(errors) + Tag(index, KindErrors(old(Snapshot()), kind, hasDefault, isPy3K))
    {
      if kind == PositionalContainer {
        VisitPositionalContainer(index);
      } else if kind == KeywordContainer {
        VisitKeywordContainer(index);
      } else {
        VisitRegular(index, hasDefault);
      }
    }

    /** Lines 32-37: an `*args` parameter. */
    method VisitPositionalContainer(index: nat)
      modifies this
      ensures Snapshot() == old(Snapshot()).(hadPositionalContainer := true)
      ensures errors == old(errors) + Tag(index, KindErrors(old(Snapshot()), PositionalContainer, false, isPy3K))
    {
      if hadKeywordContainer {
        MarkError(index, StarredParamAfterKwParam);
      }
      hadPositionalContainer := true;
    }

    /** Lines 38-43: a `**kwargs` parameter. */
    method VisitKeywordContainer(index: nat)
      modifies this
      ensures Snapshot() == old(Snapshot()).(hadKeywordContainer := true)
      ensures errors == old(errors) + Tag(index, KindErrors(old(Snapshot()), KeywordContainer, false, isPy3K))
    {
      hadKeywordContainer := true;
      if hadSingleStar && !hadParamsAfterSingleStar {
        MarkError(index, NamedArgumentsAfterStar);
      }
    }

    /** Lines 44-62: a regular parameter. */
    method VisitRegular(index: nat, hasDefault: bool)
      modifies this
      ensures Snapshot() == old(Snapshot()).(
        hadParamsAfterSingleStar := old(hadParamsAfterSingleStar) || old(hadSingleStar),
        hadDefaultValue := old(hadDefaultValue) || hasDefault)
      ensures errors == old(errors) + Tag(index, KindErrors(old(Snapshot()), Regular, hasDefault, isPy3K))
    {
      ghost var before := Snapshot();
      ghost var errors0 := errors;
      if hadSingleStar {
        hadParamsAfterSingleStar := true;
      }
      if hadPositionalContainer && !isPy3K {
        MarkError(index, RegularParamAfterVararg);
      } else if hadKeywordContainer {
        MarkError(index, RegularParamAfterKeyword);
      }
      ghost var errors1 := errors;
      assert errors1 == errors0 + Tag(index, ContainerErrors(before, isPy3K));
      if hasDefault {
        hadDefaultValue := true;
      } else {
        if hadDefaultValue && !hadSingleStar && (!isPy3K || !hadPositionalContainer) {
          MarkError(index, NonDefaultParamAfterDefault);
        }
      }
      assert errors == errors1 + Tag(index, DefaultErrors(before, hasDefault, isPy3K));
      TagAppend(errors0, index, ContainerErrors(before, isPy3K), DefaultErrors(before, hasDefault, isPy3K));
    }

    /** visitSingleStarParameter: records the bare `*`; a bare `*` that ends
        the list is marked. */
    method VisitSingleStarParameter(index: nat, first: bool, last: bool)
      modifies this
      ensures Snapshot() == Next(old(Snapshot()), SingleStar)
      ensures errors == old(errors) + Tag(index, ErrorsFor(old(Snapshot()), SingleStar, last, isPy3K))
      ensures Grows(old(Snapshot()), Snapshot())
    {
      hadSingleStar := true;
      if last {
        MarkError(index, NamedArgumentsAfterStar);
      }
      NextGrows(old(Snapshot()), SingleStar);
    }
  }

  /** One step of the walk: hands parameter `i` to the visit method for its
      kind, telling whether it is the first and the last one. */
  method VisitParam(visitor: ParamVisitor, params: seq<Param>, i: nat)
    requires i < |params|
    modifies visitor
    ensures visitor.Snapshot() == Next(old(visitor.Snapshot()), params[i])
    ensures visitor.errors == old(visitor.errors) + Tag(i, ErrorsFor(old(visitor.Snapshot()), params[i], i == |params| - 1, visitor.isPy3K))
  {
    match params[i] {
      case Named(name, kind, hasDefault) =>
        visitor.VisitNamedParameter(i, name, kind, hasDefault, i == 0, i == |params| - 1);
      case SingleStar =>
        visitor.VisitSingleStarParameter(i, i == 0, i == |params| - 1);
    }
  }

  /** visitPyParameterList on a flat list: one visitor walks the parameters in
      order, `first` and `last` telling the position in the list. The result
      holds, for every parameter, exactly the messages its rules call for. */
  method VisitParameterList(params: seq<Param>, isPy3K: bool) returns (errors: seq<Annotation>)
    ensures errors == Annotations(params, isPy3K, |params|)
    ensures forall a :: a in errors <==> a.index < |params| && a.error in ErrorsAt(params, a.index, isPy3K)
  {
    var visitor := new ParamVisitor(isPy3K);
    var i := 0;
    while i < |params|
      invariant 0 <= i <= |params|
      invariant visitor.isPy3K == isPy3K
      invariant visitor.Snapshot() == FlagsBefore(params, i)
      invariant visitor.errors == Annotations(params, isPy3K, i)
      decreases |params| - i
    {
      VisitParam(visitor, params, i);
      i := i + 1;
    }
    errors := visitor.errors;
    AnnotationsMembers(params, isPy3K);
  }

  // ---------------------------------------------------------------------------
  // Properties

  lemma NamesStep(ps: seq<Param>, i: nat)
    requires i < |ps|
    ensures NamesBefore(ps, i + 1) == NamesBefore(ps, i) + (if ps[i].Named? then {ps[i].name} else {})
  {
    if ps[i].Named? {
      assert ps[i].name in NamesBefore(ps, i + 1);
    }
  }

  lemma SawKindStep(ps: seq<Param>, i: nat, kind: ParamKind)
    requires i < |ps|
    ensures SawKind(ps, i + 1, kind) == (SawKind(ps, i, kind) || IsKind(ps[i], kind))
  {
    if SawKind(ps, i + 1, kind) && !IsKind(ps[i], kind) {
      var k :| 0 <= k < i + 1 && IsKind(ps[k], kind);
      assert k < i;
    }
    if IsKind(ps[i], kind) {
      assert 0 <= i < i + 1 && IsKind(ps[i], kind);
    }
  }

  lemma SawDefaultStep(ps: seq<Param>, i: nat)
    requires i < |ps|
    ensures SawDefault(ps, i + 1) == (SawDefault(ps, i) || (IsRegular(ps[i]) && ps[i].hasDefault))
  {
    if SawDefault(ps, i + 1) && !(IsRegular(ps[i]) && ps[i].hasDefault) {
      var k :| 0 <= k < i + 1 && IsRegular(ps[k]) && ps[k].hasDefault;
      assert k < i;
    }
  }

  lemma SawSingleStarStep(ps: seq<Param>, i: nat)
    requires i < |ps|
    ensures SawSingleStar(ps, i + 1) == (SawSingleStar(ps, i) || ps[i].SingleStar?)
  {
    if SawSingleStar(ps, i + 1) && !ps[i].SingleStar? {
      var k :| 0 <= k < i + 1 && ps[k].SingleStar?;
      assert k < i;
    }
  }

  lemma SawRegularAfterSingleStarStep(ps: seq<Param>, i: nat)
    requires i < |ps|
    ensures SawRegularAfterSingleStar(ps, i + 1) ==
      (SawRegularAfterSingleStar(ps, i) || (IsRegular(ps[i]) && SawSingleStar(ps, i)))
  {
    if SawRegularAfterSingleStar(ps, i + 1) && !SawRegularAfterSingleStar(ps, i) {
      var k :| 0 <= k < i + 1 && IsRegular(ps[k]) && SawSingleStar(ps, k);
      assert k == i;
    }
  }

  /** Visiting parameter `i` turns the fields for the parameters before it
      into the fields for the parameters up to and including it. */
  lemma NextAgreesWithHistory(ps: seq<Param>, i: nat)
    requires i < |ps|
    ensures History(ps, i + 1) == Next(History(ps, i), ps[i])
  {
    NamesStep(ps, i);
    SawKindStep(ps, i, PositionalContainer);
    SawKindStep(ps, i, KeywordContainer);
    SawDefaultStep(ps, i);
    SawSingleStarStep(ps, i);
    SawRegularAfterSingleStarStep(ps, i);
  }

  /** The fields after the parameters before index `i` are what the
      parameters before `i` describe: the names seen, whether an `*args`, a
      `**kwargs`, a regular parameter with a default, a bare `*`, and a
      regular parameter after a bare `*` came before. */
  lemma {:induction false} FlagsMeanHistory(ps: seq<Param>, i: nat)
    requires i <= |ps|
    ensures FlagsBefore(ps, i) == History(ps, i)
  {
    if i > 0 {
      FlagsMeanHistory(ps, i - 1);
      NextAgreesWithHistory(ps, i - 1);
    }
  }

  /** The fields only grow along the list. */
  lemma {:induction false} HistoryGrows(ps: seq<Param>, i: nat, j: nat)
    requires i <= j <= |ps|
    ensures Grows(FlagsBefore(ps, i), FlagsBefore(ps, j))
    decreases j - i
  {
    if i < j {
      HistoryGrows(ps, i, j - 1);
      NextGrows(FlagsBefore(ps, j - 1), ps[j - 1]);
    }
  }

  /** A tagged message is among the first `n` lists exactly when its
      position is below `n` and its list holds it. */
  lemma {:induction false} TaggedAt(ess: seq<seq<ErrorKind>>, n: nat, a: Annotation)
    requires n <= |ess|
    ensures a in TagAll(ess, n) <==> a.index < n && a.error in ess[a.index]
  {
    if n > 0 {
      TaggedAt(ess, n - 1, a);
      TagMember(n - 1, ess[n - 1], a);
    }
  }

  /** An annotation is marked exactly when its parameter's rules call for it. */
  lemma AnnotatedAt(ps: seq<Param>, isPy3K: bool, n: nat, a: Annotation)
    requires n <= |ps|
    ensures a in Annotations(ps, isPy3K, n) <==> a.index < n && a.error in ErrorsAt(ps, a.index, isPy3K)
  {
    TaggedAt(ErrorLists(ps, isPy3K), n, a);
  }

  /** Every annotation of the whole list is one its parameter's rules call for,
      and every such annotation is marked. */
  lemma AnnotationsMembers(ps: seq<Param>, isPy3K: bool)
    ensures forall a :: a in Annotations(ps, isPy3K, |ps|) <==> a.index < |ps| && a.error in ErrorsAt(ps, a.index, isPy3K)
  {
    forall a ensures a in Annotations(ps, isPy3K, |ps|) <==> a.index < |ps| && a.error in ErrorsAt(ps, a.index, isPy3K) {
      AnnotatedAt(ps, isPy3K, |ps|, a);
    }
  }

  /** Lines 28-31: a named parameter is marked as a duplicate exactly when an
      earlier named parameter has the same name. */
  lemma DuplicateNameRule(ps: seq<Param>, isPy3K: bool, i: nat)
    requires i < |ps|
    ensures Annotation(i, DuplicateParamName) in Annotations(ps, isPy3K, |ps|) <==>
      ps[i].Named? && exists k :: 0 <= k < i && ps[k].Named? && ps[k].name == ps[i].name
  {
    FlagsMeanHistory(ps, i);
    ErrorsForContains(FlagsBefore(ps, i), ps[i], i == |ps| - 1, isPy3K);
    AnnotatedAt(ps, isPy3K, |ps|, Annotation(i, DuplicateParamName));
    if ps[i].Named? && ps[i].name in NamesBefore(ps, i) {
      var k :| 0 <= k < i && ps[k].Named? && ps[k].name == ps[i].name;
    }
  }

  /** Lines 28-31: the first parameter with a given name is never marked as a
      duplicate. */
  lemma FirstOccurrenceNotDuplicate(ps: seq<Param>, isPy3K: bool, i: nat)
    requires i < |ps| && ps[i].Named?
    requires forall k :: 0 <= k < i && ps[k].Named? ==> ps[k].name != ps[i].name
    ensures Annotation(i, DuplicateParamName) !in Annotations(ps, isPy3K, |ps|)
  {
    DuplicateNameRule(ps, isPy3K, i);
  }

  /** Lines 32-36: `*args` is marked exactly when a `**kwargs` came before it. */
  lemma StarredAfterKeywordRule(ps: seq<Param>, isPy3K: bool, i: nat)
    requires i < |ps|
    ensures Annotation(i, StarredParamAfterKwParam) in Annotations(ps, isPy3K, |ps|) <==>
      IsKind(ps[i], PositionalContainer) && SawKind(ps, i, KeywordContainer)
  {
    FlagsMeanHistory(ps, i);
    ErrorsForContains(FlagsBefore(ps, i), ps[i], i == |ps| - 1, isPy3K);
    AnnotatedAt(ps, isPy3K, |ps|, Annotation(i, StarredParamAfterKwParam));
  }

  /** Lines 38-47 and 66-71: keyword-only arguments need a named parameter
      after the bare `*`: a `**kwargs` is marked when a bare `*` came before it
      with no regular parameter since, and a bare `*` is marked when it ends
      the list. */
  lemma NamedArgumentsAfterStarRule(ps: seq<Param>, isPy3K: bool, i: nat)
    requires i < |ps|
    ensures Annotation(i, NamedArgumentsAfterStar) in Annotations(ps, isPy3K, |ps|) <==>
      || (IsKind(ps[i], KeywordContainer) && SawSingleStar(ps, i) && !SawRegularAfterSingleStar(ps, i))
      || (ps[i].SingleStar? && i == |ps| - 1)
  {
    FlagsMeanHistory(ps, i);
    ErrorsForContains(FlagsBefore(ps, i), ps[i], i == |ps| - 1, isPy3K);
    AnnotatedAt(ps, isPy3K, |ps|, Annotation(i, NamedArgumentsAfterStar));
  }

  /** Lines 48-50: a regular parameter after `*args` is marked, except at the
      Python 3 language level. */
  lemma RegularAfterVarargRule(ps: seq<Param>, isPy3K: bool, i: nat)
    requires i < |ps|
    ensures Annotation(i, RegularParamAfterVararg) in Annotations(ps, isPy3K, |ps|) <==>
      IsRegular(ps[i]) && SawKind(ps, i, PositionalContainer) && !isPy3K
  {
    FlagsMeanHistory(ps, i);
    ErrorsForContains(FlagsBefore(ps, i), ps[i], i == |ps| - 1, isPy3K);
    AnnotatedAt(ps, isPy3K, |ps|, Annotation(i, RegularParamAfterVararg));
  }

  /** Lines 51-53: otherwise, a regular parameter after `**kwargs` is marked. */
  lemma RegularAfterKeywordRule(ps: seq<Param>, isPy3K: bool, i: nat)
    requires i < |ps|
    ensures Annotation(i, RegularParamAfterKeyword) in Annotations(ps, isPy3K, |ps|) <==>
      && IsRegular(ps[i]) && SawKind(ps, i, KeywordContainer)
      && !(SawKind(ps, i, PositionalContainer) && !isPy3K)
  {
    FlagsMeanHistory(ps, i);
    ErrorsForContains(FlagsBefore(ps, i), ps[i], i == |ps| - 1, isPy3K);
    AnnotatedAt(ps, isPy3K, |ps|, Annotation(i, RegularParamAfterKeyword));
  }

  /** Lines 48-53: a parameter gets at most one of the two messages about
      regular parameters after containers. */
  lemma AtMostOneContainerError(ps: seq<Param>, isPy3K: bool, i: nat)
    requires i < |ps|
    ensures !(Annotation(i, RegularParamAfterVararg) in Annotations(ps, isPy3K, |ps|) &&
              Annotation(i, RegularParamAfterKeyword) in Annotations(ps, isPy3K, |ps|))
  {
    RegularAfterVarargRule(ps, isPy3K, i);
    RegularAfterKeywordRule(ps, isPy3K, i);
  }

  /** Lines 54-61: a regular parameter without a default after one with a
      default is marked, unless a bare `*` came before it, or, at the Python 3
      level, an `*args` did. */
  lemma NonDefaultAfterDefaultRule(ps: seq<Param>, isPy3K: bool, i: nat)
    requires i < |ps|
    ensures Annotation(i, NonDefaultParamAfterDefault) in Annotations(ps, isPy3K, |ps|) <==>
      && IsRegular(ps[i]) && !ps[i].hasDefault
      && SawDefault(ps, i)
      && !SawSingleStar(ps, i)
      && (!isPy3K || !SawKind(ps, i, PositionalContainer))
  {
    FlagsMeanHistory(ps, i);
    ErrorsForContains(FlagsBefore(ps, i), ps[i], i == |ps| - 1, isPy3K);
    AnnotatedAt(ps, isPy3K, |ps|, Annotation(i, NonDefaultParamAfterDefault));
  }
}

=== FILE: wrappers.dfy ===
/** The optional value used wherever the source returns or passes a nullable reference. */
module Wrappers {
  datatype Option<+T> = None | Some(value: T)
}
